=== FILE: README.md ===
# FastConsole in Dafny

FastConsole is a static console manager for .NET. A background render loop
repaints the whole console window at a fixed frame rate. Each frame shows
three things:

- the registered constant lines, at the top;
- the scrollback log of text written through `Write` and `WriteLine`;
- the line the user is typing, at the bottom.

The loop also reads one key per frame into a small line editor. That editor has
a cursor, a 20-entry input history and a queue of completed lines that
`ReadLine` hands out without blocking.

There are two versions of the console, and this project models both:

- The root `FastConsole.cs` never splits a write: the text becomes a new log
  entry, or is appended to the last entry when that one is still open. It pads every
  screen row to the screen width (`WindowWidth - 1`). Its `Start` never clears the Stopped flag.
- `src/ConsoleManager.NET4/FastConsole.cs` wraps every write with
  `SubstringText`. Every segment but the last is `width - 1 - len(NewLine)`
  characters long, leaving room for the terminator; the last is narrower than
  the screen. It shrinks the log's capacity by
  the number of constant lines. Its `Stop` wipes the log, the input queue, the
  history and the constant-line registry.

The model is pure and functional. The console's static fields become an
immutable `Console` value. Every public or internal operation is a function
from one console value to the next. Every place where the C# code throws
(an out-of-range `Substring`/`Insert`/`Remove`, a history index below zero,
`Dequeue` on an empty queue, a division by zero in the frame-rate setter, or
unbounded recursion in `DrawLine`) returns `Err` of a `Fault`. The model does
not exclude these cases by a precondition.

Modules:

- `Common` holds results and faults, concatenation of a log, line-terminator
  tests, `PadRight`, C#'s truncating division and the one-entry eviction.
- `Wrap` models `SubstringText` and the terminators the .NET 4 writes add.
- `Editor` models `HandleInput`'s line editor. A reference "text before / text
  after the cursor" model accompanies it.
- `Screen` models `DrawLine` and `DrawLineInternal` in both row styles.
- `Timing` models the `ScreenFPS` and `ExcecutionMilliseconds` setters.
- `Session` holds the console state and the operations the two versions
  implement identically: `ReadLine`, `InputAvailable`, `Enabled`,
  `ClearOutput` and the constant-line registry. The `Session` rows cite the
  root file. The .NET 4 file has the same code at
  `src/ConsoleManager.NET4/FastConsole.cs:40-51`, 122 and 356-360.
- `Net4Console` is the .NET 4 console: wrapped log, input and lifecycle, and
  the registry's effect on the log capacity.
- `RootConsole` is the root console: log, input and lifecycle. It
  also covers sequences of public calls.

`ScreenWidth` (`Console.WindowWidth - 1`), `ScreenHeight`
(`Console.WindowHeight - 1`) and `Environment.NewLine` are a `Terminal`
parameter. The model's `width` and `height` are those two properties.
Whether the render thread is still alive is a boolean parameter of `Start`.

## Model

| member | source | states |
|---|---|---|
| Common.Evict | src/ConsoleManager.NET4/FastConsole.cs:118-119 | The log loses at most its oldest entry. What remains is a suffix of the log. An entry is removed exactly when the log is longer than the capacity. |
| Common.TruncDiv | FastConsole.cs:16 | C# `/` on `int`. The quotient's magnitude is the floor of the magnitudes' quotient, and its sign is that of the exact quotient. So it truncates toward zero for every sign, where Dafny's `/` rounds down. |
| Wrap.SubstringText | src/ConsoleManager.NET4/FastConsole.cs:53-67 | The split faults exactly when the text is at least as wide as the screen and the segment length `width - 1 - len(NewLine)` is 0 or less. Otherwise the segments concatenate back to the text, and there is at least one. Every segment but the last has the segment length, and the last is narrower than the screen. A cut is made only while the rest of the text from that point is at least as wide as the screen. |
| Wrap.CutIsUnique | src/ConsoleManager.NET4/FastConsole.cs:53-67 | Any list of segments with the properties above is exactly the result of SubstringText, so the contract determines the split. |
| Wrap.SeventeenCharactersAtWidthTen | src/ConsoleManager.NET4/FastConsole.cs:56-60 | 17 characters at width 10 with NewLine "\n" give a segment of 8 and one of 9. The cutting stops once the rest is narrower than the screen. |
| Wrap.SegmentOffsets | src/ConsoleManager.NET4/FastConsole.cs:56-60 | Segment i is exactly the slice of the text at offset `i * (width - 1 - len(NewLine))`. Every segment but the last starts where at least `width` characters remain. The last segment starts where fewer than `width` remain and runs to the end of the text. |
| Wrap.ShortTextIsOneSegment | src/ConsoleManager.NET4/FastConsole.cs:62-66 | A text narrower than the screen is one segment, itself, at any width. |
| Wrap.EmptyTextIsOneSegment | src/ConsoleManager.NET4/FastConsole.cs:62-66 | Whenever the split does not fault, the empty text gives exactly one segment, the empty one. The console therefore still adds an entry for an empty write. |
| Wrap.UnterminateTerminate | src/ConsoleManager.NET4/FastConsole.cs:77-83 | Terminating every segment but the last and then stripping those terminators gives back the segments. |
| Wrap.UnterminateAllTerminateAll | src/ConsoleManager.NET4/FastConsole.cs:112-113 | Terminating every segment and then stripping every terminator gives back the segments. |
| Session.ReadLine | FastConsole.cs:75 | A stopped console returns "" and does not change. A running one returns the oldest queued line and removes exactly that line from the queue, or faults on an empty queue. |
| Session.ReadLineSucceedsIffAvailable | FastConsole.cs:39-41 | On a console that is Enabled (`!Stopped`, line 41), ReadLine succeeds exactly when InputAvailable holds (`!Stopped && Count > 0`, line 39). |
| Session.ClearOutput | FastConsole.cs:301-305 | A running console gets an empty log, with nothing else changed. A stopped console does not change. |
| Session.ConstantAddLine | FastConsole.cs:45-49 | `TryAdd` semantics. A null provider or an already registered format leaves the console unchanged. Otherwise the format is registered with the given delegate, every existing registration is kept, and nothing but the registry changes. |
| Session.FirstRegistrationWins | FastConsole.cs:45-49 | Once a delegate is registered for a format, a later registration of that format with any provider leaves that first delegate in place. |
| Session.ConstantClearLines | FastConsole.cs:50 | Only the registry changes, and it becomes empty. |
| Net4Console.WriteLog | src/ConsoleManager.NET4/FastConsole.cs:68-103 | Entries before the open last entry, or all entries of a closed log, are unchanged. The new entries, with the terminators of all but the last removed, are exactly the segments SubstringText cuts from the open entry followed by the text. So every new entry but the last ends with NewLine and has length `width - 1`, and the last is narrower than the screen. The write faults exactly when that split faults. |
| Net4Console.AppendLineLog | src/ConsoleManager.NET4/FastConsole.cs:104-117 | It faults exactly when wrapping the text faults. On a closed log each segment, followed by NewLine, becomes one new entry: the new entries with their terminators removed are exactly the segments. On an open log all terminated segments are glued onto the last entry, and the entry count does not change. Either way the characters grow by exactly the terminated segments, and the last entry ends with NewLine. |
| Net4Console.Write | src/ConsoleManager.NET4/FastConsole.cs:68-103 | A stopped console does not change. A running one changes only its log, as WriteLog describes. |
| Net4Console.WriteLine | src/ConsoleManager.NET4/FastConsole.cs:104-121 | A stopped console does not change. A running one faults exactly when wrapping the text faults. Otherwise its log is the appended log with at most its oldest entry evicted, and the last entry is closed. Eviction is against `Net4Console.Capacity`, which is `ConsoleOutputLength = ScreenHeight - ConstantLines.Count - 2` (line 29). |
| Net4Console.WriteLineCanExceedCapacity | src/ConsoleManager.NET4/FastConsole.cs:104-121 | A single eviction does not keep the log within its capacity: on a screen of width 4 and height 3, WriteLine("abcdef") leaves two entries against a capacity of 1. |
| Net4Console.WriteLineOfShortTextKeepsCapacity | src/ConsoleManager.NET4/FastConsole.cs:104-121 | A text narrower than the screen keeps a log that is within its capacity within it. |
| Net4Console.HandleInput | src/ConsoleManager.NET4/FastConsole.cs:217-228 | On a running console, Enter leaves the log exactly as WriteLine of the typed line does, and faults exactly when that wrap faults. It then queues the line and records it in the history. Other keys change only the editor, and fault exactly when the editor does. |
| Net4Console.Stop | src/ConsoleManager.NET4/FastConsole.cs:139-150 | Stop disables the console. It empties the log, the queue, the history and the registry. It keeps the history position, the typed line, the cursor and the timing. |
| Net4Console.Start | src/ConsoleManager.NET4/FastConsole.cs:124-138 | Start faults exactly for a frame rate of 0. Otherwise it leaves the console enabled, with the rate and interval the `ScreenFPS` setter computes. If the render thread is alive, the result is the stopped-and-wiped console. Otherwise only the flag and the timing change. |
| Net4Console.StopThenStart | src/ConsoleManager.NET4/FastConsole.cs:124-150 | Stop followed by Start gives an enabled console with an empty log, queue, history and registry. |
| Net4Console.DownAfterStopAndRestartFaults | src/ConsoleManager.NET4/FastConsole.cs:257-263 | After Stop and Start, a history position of 2 or more outlives the emptied history, and DownArrow then faults. |
| Net4Console.ConstantLinesShrinkCapacity | src/ConsoleManager.NET4/FastConsole.cs:29 | Each newly registered constant line lowers the log capacity by one. A null provider or a repeated format does not. Clearing the registry restores the capacity to `height - 2`. |
| Editor.Submit | src/ConsoleManager.NET4/FastConsole.cs:220-227 | The typed line is queued. It is recorded in the history unless the history already holds 20 lines, in which case the history is unchanged. The line becomes empty, the cursor goes to 0 and the history position is kept. |
| Editor.Edit | src/ConsoleManager.NET4/FastConsole.cs:217-291 | A key faults exactly in three cases: a character is typed with the cursor past the end; Backspace is pressed with a non-empty line and the cursor past its end; Down goes to a position beyond the history. Enter is exactly `Submit`. Keys other than Enter leave history and queue unchanged. Line keys keep the history position, and Up/Down/Escape keep the cursor. Line keys preserve a cursor inside the line. Every key except typing and Backspace preserves a history position within a bounded history.. |
| Editor.EditMatchesZipper | src/ConsoleManager.NET4/FastConsole.cs:230-290 | With the cursor inside the line, each editing or moving key acts on the line as the reference "before cursor / after cursor" model does: insert, delete left, delete right, move, jump to either end. |
| Editor.TypedThenBackspace | src/ConsoleManager.NET4/FastConsole.cs:230-290 | Typing a character and then Backspace restores the line and the cursor. |
| Editor.DeleteKeepsCursor | src/ConsoleManager.NET4/FastConsole.cs:230-246 | Delete never faults and never moves the cursor. Backspace at position 0 changes nothing. |
| Editor.CursorKeysMoveOnlyTheCursor | src/ConsoleManager.NET4/FastConsole.cs:265-281 | Left, Right, Home, End and Tab never fail and change only the cursor, wherever it is. Left steps back unless at 0, and Right steps forward unless at the end of the line. Home goes to 0 and End to the line length. Tab does nothing. |
| Editor.DeletionsWithNothingToDelete | src/ConsoleManager.NET4/FastConsole.cs:230-246 | Delete with no character after the cursor changes nothing, and neither does Backspace at position 0 or on an empty line, wherever the cursor is. |
| Editor.TypedAtEndAppends | src/ConsoleManager.NET4/FastConsole.cs:283-285 | A character typed with the cursor at the end of the line is appended to it, and the cursor moves past it. |
| Editor.LineKeysPastTheEnd | src/ConsoleManager.NET4/FastConsole.cs:230-281 | With the cursor past the end of the line, every line key other than Enter, a typed character, and Backspace on a non-empty line succeeds and keeps the line. Left steps back by one, Home and End bring the cursor back into the line, and Delete, Tab, Right and Backspace change nothing. |
| Editor.LeftThenRight | src/ConsoleManager.NET4/FastConsole.cs:265-272 | Left then Right returns the cursor to where it was when it was not at the start. |
| Editor.EscapeIsUp | src/ConsoleManager.NET4/FastConsole.cs:248-256 | Escape falls through to the Up arrow and behaves identically. |
| Editor.DownAtNewestIsNoop | src/ConsoleManager.NET4/FastConsole.cs:257-263 | Down at history position 0 or 1 changes nothing. |
| Editor.UpAtOldestIsNoop | src/ConsoleManager.NET4/FastConsole.cs:250-256 | Up at the oldest entry, or with an empty history, changes nothing. |
| Editor.UpStepsBack | src/ConsoleManager.NET4/FastConsole.cs:250-256 | While an older entry exists, Up raises the position by one and shows that entry; from position 0 that is the newest line. The cursor, history and queue are unchanged. |
| Editor.DownStepsForward | src/ConsoleManager.NET4/FastConsole.cs:257-263 | While a newer entry exists (position 2 up to one past the history), Down lowers the position by one and shows that entry, `history[len - pos + 1]`. The cursor, history and queue are unchanged. |
| Editor.UpThenDown | src/ConsoleManager.NET4/FastConsole.cs:250-263 | While browsing, Up then Down returns to the same history position and recalled line. |
| Editor.UpCanBreakCursorBound | src/ConsoleManager.NET4/FastConsole.cs:250-256 | Recalling a shorter history entry leaves the cursor past the end of the line. A typed character then faults. |
| Editor.DownBeyondHistoryFaults | src/ConsoleManager.NET4/FastConsole.cs:257-263 | Down from a position beyond the history length faults. |
| Editor.LineKeysKeepCursorInBounds | src/ConsoleManager.NET4/FastConsole.cs:230-290 | Any run of line keys, Enter included, never faults and keeps the cursor inside the line. |
| Editor.NavigationKeepsHistoryInRange | src/ConsoleManager.NET4/FastConsole.cs:217-281 | Any run of keys other than typing and Backspace never faults, and keeps the history bounded by 20 with the position inside it. |
| Editor.HistoryWalk | src/ConsoleManager.NET4/FastConsole.cs:217-263 | After submitting a, b and c, Up three times recalls c, b and a, and Down then recalls b. |
| Screen.DrawLineInternal | src/ConsoleManager.NET4/FastConsole.cs:311-317 | The row counter advances by one. The row at the counter is stored only when it is inside the buffer, and no other row changes. |
| Screen.Render | FastConsole.cs:257-268 | The stored row starts with the text. A raw row is exactly the text; a padded row is at least the width long and every character after the text is a blank. |
| Screen.Pieces | src/ConsoleManager.NET4/FastConsole.cs:294-303 | The row pieces concatenate to the text. Each is at most the width, and all but the last are exactly the width. |
| Screen.DrawLine | src/ConsoleManager.NET4/FastConsole.cs:294-303 | It faults exactly when a text wider than the screen meets a width of 0 or less. Otherwise the row counter advances by the number of pieces. Every row in the range it passes holds its piece, rendered raw or padded, and all other rows are unchanged. |
| Screen.RowCount | src/ConsoleManager.NET4/FastConsole.cs:294-303 | A text takes one row when it fits, otherwise `ceil(len / width)` rows. |
| Screen.RawRowsReassembleText | src/ConsoleManager.NET4/FastConsole.cs:311-317 | When the rows fit into the buffer, the .NET 4 console's stored rows read back as the text. |
| Screen.RowsPastBufferAreDropped | src/ConsoleManager.NET4/FastConsole.cs:311-317 | With the row counter past the buffer, nothing is stored in either style. |
| Screen.PaddedRowsHaveScreenWidth | FastConsole.cs:257-263 | Every row the root console stores is exactly as wide as the screen. |
| Screen.DrawLineAt | FastConsole.cs:250-256 | It faults exactly for a negative width. Otherwise only row y changes, and only when y is inside the buffer. That row shows the first `min(len, width)` characters, raw or padded to the width with blanks: it equals `Render` of that prefix. The row counter is untouched. |
| Screen.StoreRow | FastConsole.cs:264-268 | Row y is replaced by the rendered text when y is inside the buffer; otherwise nothing changes. No other row changes, and neither does the row counter. |
| Timing.SetScreenFps | FastConsole.cs:16 | It faults exactly for 0. For a positive rate, the interval is the largest whole number of milliseconds that fits that many times into 1000. A negative rate gives the negated interval of its magnitude (truncation toward zero). |
| Timing.SetInterval | FastConsole.cs:19 | It faults exactly for 0. For a positive interval, the rate is the largest number of frames of that length that fit into 1000 ms. A negative interval gives the negated rate of its magnitude. |
| Timing.NegativeRateTruncates | FastConsole.cs:16 | A rate of -3 gives an interval of -333, not the -334 of Euclidean division. |
| Timing.RoundTripWhenRateDividesSecond | FastConsole.cs:16-19 | A rate that divides 1000 is recovered from its interval. |
| Timing.RoundTripNotExact | FastConsole.cs:16-19 | 600 fps gives 1 ms, and 1 ms gives back 1000 fps. |
| Timing.FastRateGivesZeroInterval | FastConsole.cs:16-19 | Above 1000 fps the interval is 0, and setting that interval divides by zero. |
| RootConsole.WriteLog | FastConsole.cs:52-61 | The log's characters grow by exactly the text. On a closed or empty log the text is a new entry. On an open log only the last entry changes. |
| RootConsole.WriteLineLog | FastConsole.cs:62-74 | The result is the log with the text and NewLine written, then at most the oldest entry evicted. It grows by at most one entry and ends with a closed entry. It stays within the capacity when it started within it. |
| RootConsole.Write | FastConsole.cs:52-61 | A stopped console does not change. A running one changes only its log, which becomes exactly `WriteLog` of the old log and the text; its characters grow by exactly the text. |
| RootConsole.WriteLine | FastConsole.cs:62-74 | A stopped console does not change. A running one changes only its log, as WriteLineLog describes. Eviction is against `RootConsole.Capacity`, which is `ConsoleOutputLength = ScreenHeight - 2` (line 29). It never leaves a log over that capacity when it started within it. |
| RootConsole.OpenLineAppend | FastConsole.cs:52-69 | Write("ab") and Write("cd") make one entry "abcd". WriteLine("ab") and Write("cd") make two entries. |
| RootConsole.WriteCanExceedCapacity | FastConsole.cs:52-61 | Write never evicts, so it can leave the log over the capacity. |
| RootConsole.HandleInput | FastConsole.cs:155-238 | A running console faults exactly when the editor faults, and its editor becomes the edited state. Enter also writes the line with WriteLine. |
| RootConsole.Stop | FastConsole.cs:90-96 | Only the Stopped flag changes. |
| RootConsole.Start | FastConsole.cs:77-89 | It faults exactly for a frame rate of 0. It never clears Stopped, and sets it when the render thread is alive. Otherwise only the timing changes, to the rate and interval the `ScreenFPS` setter computes. |
| RootConsole.StoppedIsPermanent | FastConsole.cs:75-96 | Once stopped, any sequence of public calls leaves the console stopped with its log and editor unchanged. |
| RootConsole.PingScenario | FastConsole.cs:155-174 | After Start, WriteLine("hello") and typing "ping" followed by Enter, the log is "hello", "ping" and the line is queued. ReadLine returns "ping" once. No input is then available, and a second ReadLine faults. |

The `Editor` rows cite the .NET 4 file. Its `HandleInput` is identical, key by
key, to `FastConsole.cs:155-238`.

## Behaviour worth knowing

- The root `Start` (`FastConsole.cs:77-89`) never sets Stopped back to false.
  A root console that was stopped stays stopped (`RootConsole.StoppedIsPermanent`).
- The root `Stop` (`FastConsole.cs:90-96`) clears nothing.
- Neither version resets the line being typed, the cursor or the history
  position on Start or Stop, and Enter does not reset the history position.
- The .NET 4 `Stop` empties the history but keeps the position, so a later
  DownArrow faults (`Net4Console.DownAfterStopAndRestartFaults`).
- WriteLine evicts at most one entry. A wrapped .NET 4 WriteLine can leave the
  log over its capacity (`Net4Console.WriteLineCanExceedCapacity`).
- A root Write never evicts (`RootConsole.WriteCanExceedCapacity`).
- `HandleInput` caps the history by removing the entry just added (index
  `Count - 1`). A full history therefore records no new lines (`Editor.Submit`).
- Up, Down and Escape replace the line but keep the cursor. The cursor can end
  up past the end of the line, and a typed character then faults
  (`Editor.UpCanBreakCursorBound`).

## Left out

- The render loop `Cycle` is not modelled: frame timing with stopwatches and
  `Thread.Sleep`, the cursor blink, buffer reallocation on window resize,
  `DrawScreen` and `DrawCurrentLine` are all I/O against the real console.
- The per-frame drawing order is not modelled: constant lines first, then every
  log entry oldest first, then the input row at the last row. Only the row
  placement of one `DrawLine` call is (`Screen`).
- Evaluating constant-line providers and `string.Format` is out of scope.
  A provider is modelled as null or as a delegate with an identity, which is
  enough to tell which registration the registry keeps.
- Concurrency is not modelled: the `ConcurrentDictionary`, the unsynchronised
  lists shared by the render thread and callers, and the wait loop in `Stop`.
  That loop sleeps for the frame interval while the render thread is alive
  (`FastConsole.cs:93-94`, `src/ConsoleManager.NET4/FastConsole.cs:142-143`).
  A negative frame rate gives a negative interval, and `Thread.Sleep` throws
  for anything below -1 and never returns for -1. So with a live render thread
  the real `Stop` then throws, or hangs, after setting Stopped, and the .NET 4
  one never clears the log, queue, history or registry.
- Net4Console.Stop, RootConsole.Stop: always succeed, because the wait loop
  above is not modelled; they do not promise the throw or the hang that a
  negative interval causes with a live render thread.
  Each operation is atomic in the model.
- Thread creation is not modelled, and the liveness of the render thread is a
  parameter of `Start`.
- `Console.KeyAvailable` and `Console.ReadKey` are not modelled. The key is a
  parameter of `HandleInput`, and a stopped console has no render loop to read
  it.
- Setting the title, `Console.SetOut` and `Console.CursorVisible` are not
  modelled, because they are console I/O.
- `ConsoleOutWriter` is not modelled, beyond being the route by which
  `Console.Write` reaches `Write`/`WriteLine`.
- `IsRunningOnMono` only chooses whether `DrawCurrentLine` runs, so it is not
  modelled.
- Partial updates before a fault are not modelled, because an `Err` carries no
  state. Four cases are affected:
  - the rate field the `ScreenFPS` setter assigns before dividing by zero;
  - the `Stop` that `Start` runs first when the render thread is alive, before
    a rate of 0 faults (the .NET 4 one wipes the log, queue, history and
    registry; the root one sets Stopped);
  - the `Stopped = false` of the .NET 4 `Start` before that fault;
  - the history position `DownArrow` decrements before its index faults.
- C# `int` overflow is not modelled. The frame rate, interval, capacity and
  width are unbounded integers. The cursor and the history position are
  natural numbers, because no key takes either below zero.
- Every key of the C# `default` branch is modelled as one typed character
  (`Typed`). That includes keys such as F1, whose `KeyChar` is `'\0'`.
- String comparison follows .NET only for ordinal text.
  `string.EndsWith(string)` compares with the current culture, and the model
  compares character by character. The two can differ for entries that end in
  characters the culture ignores.
- Lengths follow .NET only for text in the Basic Multilingual Plane. .NET counts
  UTF-16 code units, and the model counts one per character. A character
  outside that plane, such as an emoji, is one unit in the model and two in
  .NET, so the wrap and row cuts fall elsewhere for such text.
- Null strings are not modelled. In the code, `Write(null)` stores a null entry
  and the next `EndsWith` or `DrawLine` throws. `SubstringText(null)` and
  `ConstantAddLine(null, p)` throw as well.

=== FILE: common.dfy ===
/** Shared vocabulary of the FastConsole model: the outcome of a step that can
    raise a .NET exception, and the string helpers both console versions use. */
module Common {

  /** The .NET faults the modelled code can raise. */
  datatype Fault =
    | WrapFault       // SubstringText: Substring with a negative length, or a recursion that never shrinks
    | DrawFault       // DrawLine: Substring with a negative length, or a recursion that never shrinks
    | IndexFault      // string.Insert / string.Remove / List indexer outside the valid range
    | QueueEmpty      // Queue.Dequeue on an empty queue
    | DivideByZero    // integer division by zero in a property setter

  /** A step either succeeds with a new value or raises a fault. */
  datatype Result<T> = Ok(value: T) | Err(fault: Fault)

  /** Concatenation of a list of strings, front to back. */
  function Concat(ss: seq<string>): string
  {
    if |ss| == 0 then "" else ss[0] + Concat(ss[1..])
  }

  lemma {:induction false} ConcatAppend(a: seq<string>, b: seq<string>)
    ensures Concat(a + b) == Concat(a) + Concat(b)
    decreases |a|
  {
    if |a| == 0 {
      assert a + b == b;
    } else {
      assert (a + b)[1..] == a[1..] + b;
      ConcatAppend(a[1..], b);
    }
  }

  lemma ConcatSingle(s: string)
    ensures Concat([s]) == s
  {
    assert [s][1..] == [];
  }

  /** Start of segment `i` in a cut with stride `n`; equals `i * n` (StrideIsProduct). */
  function Stride(i: nat, n: int): int
  {
    if i == 0 then 0 else Stride(i - 1, n) + n
  }

  lemma {:induction false} StrideIsProduct(i: nat, n: int)
    ensures Stride(i, n) == i * n
  {
    if i > 0 {
      StrideIsProduct(i - 1, n);
      assert (i - 1) * n + n == i * n;
    }
  }

  /** Segment `i` of a list of segments that concatenate to `text`, all but the
      last of length `n`, is the slice of `text` starting at `i * n`; the last one
      ends exactly at the end of the text. */
  lemma {:induction false} SegmentsAreSlices(segs: seq<string>, text: string, n: int, i: nat)
    requires Concat(segs) == text
    requires forall j :: 0 <= j < |segs| - 1 ==> |segs[j]| == n
    requires i < |segs|
    ensures var off := Stride(i, n);
            && 0 <= off && off + |segs[i]| <= |text|
            && segs[i] == text[off .. off + |segs[i]|]
            && (i == |segs| - 1 ==> off + |segs[i]| == |text|)
    decreases |segs|
  {
    var tail := Concat(segs[1..]);
    assert text == segs[0] + tail;
    if i > 0 {
      SegmentsAreSlices(segs[1..], tail, n, i - 1);
      var len := |segs[i]|;
      var off := Stride(i - 1, n);
      assert segs[i] == segs[1..][i - 1];
      assert |segs[0]| == n;
      assert tail == text[n..];
      assert text[n..][off .. off + len] == text[off + n .. off + n + len];
    } else if |segs| == 1 {
      assert segs[1..] == [];
    }
  }

  /** In the same situation, the segments from `i` on spell the text from
      offset `i * n` on. */
  lemma {:induction false} SuffixFrom(segs: seq<string>, text: string, n: int, i: nat)
    requires Concat(segs) == text
    requires forall j :: 0 <= j < |segs| - 1 ==> |segs[j]| == n
    requires i < |segs|
    ensures 0 <= Stride(i, n) <= |text| && Concat(segs[i..]) == text[Stride(i, n)..]
    decreases |segs|
  {
    assert segs[0..] == segs;
    if i > 0 {
      var tail := Concat(segs[1..]);
      assert text == segs[0] + tail;
      SuffixFrom(segs[1..], tail, n, i - 1);
      assert segs[1..][i - 1..] == segs[i..];
      assert tail == text[n..];
      assert text[n..][Stride(i - 1, n)..] == text[Stride(i - 1, n) + n..];
    }
  }

  /** `string.EndsWith(suffix)`, compared character by character. The .NET
      method compares with the current culture; that difference is not modelled. */
  predicate EndsWith(s: string, suffix: string)
  {
    |suffix| <= |s| && s[|s| - |suffix|..] == suffix
  }

  lemma EndsWithAppend(s: string, suffix: string)
    ensures EndsWith(s + suffix, suffix)
  {
    assert (s + suffix)[|s|..] == suffix;
  }

  lemma EndsWithPrefixed(a: string, b: string, suffix: string)
    requires EndsWith(b, suffix)
    ensures EndsWith(a + b, suffix)
  {
    assert (a + b)[|a + b| - |suffix|..] == b[|b| - |suffix|..];
  }

  /** The last element of a non-empty list. */
  function Last<T>(xs: seq<T>): T
    requires |xs| > 0
  {
    xs[|xs| - 1]
  }

  /** A log entry is open when it does not end with the line terminator; the
      next Write appends to an open last entry instead of starting a new one. */
  predicate LastIsOpen(log: seq<string>, nl: string)
  {
    |log| > 0 && !EndsWith(Last(log), nl)
  }

  /** `string.PadRight(width)` for a non-negative width: blanks on the right up to `width`. */
  function PadRight(s: string, width: nat): (r: string)
    ensures |r| == if |s| < width then width else |s|
    ensures r[..|s|] == s
    ensures forall i :: |s| <= i < |r| ==> r[i] == ' '
  {
    if |s| < width then s + Blanks(width - |s|) else s
  }

  function Blanks(n: nat): (r: string)
    ensures |r| == n
    ensures forall i :: 0 <= i < n ==> r[i] == ' '
  {
    seq(n, _ => ' ')
  }

  function Abs(x: int): nat
  {
    if x < 0 then -x else x
  }

  /** C# integer division, which truncates toward zero (Dafny's `/` is Euclidean):
      the magnitude of the quotient is the floor of the magnitudes' quotient, and
      its sign is that of the exact quotient. */
  function TruncDiv(a: int, b: int): (q: int)
    requires b != 0
    ensures Abs(q) * Abs(b) <= Abs(a) < (Abs(q) + 1) * Abs(b)
    ensures (a >= 0) == (b > 0) ==> q >= 0
    ensures (a >= 0) != (b > 0) ==> q <= 0
  {
    var m := Abs(a) / Abs(b);
    DivBounds(Abs(a), Abs(b));
    if (a < 0) == (b < 0) then m else -m
  }

  /** Dafny's `/` on a natural number and a positive divisor is the floor. */
  lemma DivBounds(a: nat, b: int)
    requires b > 0
    ensures (a / b) * b <= a < (a / b + 1) * b
  {
    assert a == (a / b) * b + a % b;
  }

  /** `x / w` is the one `q` with `q * w <= x < q * w + w`. */
  lemma DivBetween(x: int, w: int, q: int)
    requires w > 0 && q * w <= x < q * w + w
    ensures x / w == q
  {
    var d := q - x / w;
    assert d * w == q * w - (x / w) * w;
    if d >= 1 {
      MulAtLeast(d, w);
      assert false;
    } else if d <= -1 {
      MulAtLeast(-d, w);
      assert false;
    }
  }

  lemma DivShift(x: int, w: int)
    requires w > 0 && x >= 0
    ensures (x + w) / w == x / w + 1
  {
    var q := x / w;
    assert q * w <= x < q * w + w;
    assert (q + 1) * w == q * w + w;
    DivBetween(x + w, w, q + 1);
  }

  lemma MulAtLeast(d: int, w: int)
    requires d >= 1 && w > 0
    ensures d * w >= w
  {
  }

  /** What the console reads from the terminal and the runtime:
      ScreenWidth (Console.WindowWidth - 1), ScreenHeight (Console.WindowHeight - 1)
      and Environment.NewLine. */
  datatype Terminal = Terminal(width: int, height: int, newLine: string)

  /** The line terminators .NET uses. */
  predicate ValidNewLine(nl: string)
  {
    nl == "\n" || nl == "\r\n"
  }

  /** The eviction WriteLine performs: when the log holds more than `cap`
      entries, the oldest one (index 0) is removed, and only that one. It runs
      right after an entry was written, so the log is never empty there. */
  function Evict(log: seq<string>, cap: int): (r: seq<string>)
    requires |log| > 0
    ensures |log| - 1 <= |r| <= |log|
    ensures r == log[|log| - |r|..]
    ensures |r| < |log| <==> |log| > cap
  {
    if |log| > cap then log[1..] else log
  }
}

=== FILE: editor.dfy ===
/** The input line editor (`HandleInput`): one key event updates the line being
    typed, the cursor inside it, the history browsing position, the submitted
    history and the queue of completed input lines. The code is the same in both
    console versions; only the WriteLine that Enter also performs differs, and
    the console modules supply it. */
module Editor {
  import opened Common

  /** The key events HandleInput distinguishes; every other key inserts its character. */
  datatype Key =
    | Enter | Backspace | Delete | Escape | UpArrow | DownArrow
    | LeftArrow | RightArrow | Home | End | Tab
    | Typed(c: char)

  /** Editor state. The cursor and the history position are never decremented
      below zero by any key, so they are natural numbers. */
  datatype State = State(
    buffer: string,          // CurrentConsoleInput
    cursor: nat,             // CurrentLineCharPos
    historyPos: nat,         // InputHistoryPos: 0 = not browsing, k = k-th most recent entry
    history: seq<string>,    // InputHistory, oldest first
    pending: seq<string>)    // ConsoleInput queue, front first

  const HistoryCapacity: nat := 20

  const Initial := State("", 0, 0, [], [])

  /** The cursor lies inside the line (or just after its end). */
  predicate CursorInBounds(s: State)
  {
    s.cursor <= |s.buffer|
  }

  /** The history position indexes the history and the history is bounded. */
  predicate HistoryInRange(s: State)
  {
    s.historyPos <= |s.history| && |s.history| <= HistoryCapacity
  }

  /** Keys that move or edit within the line; Up, Down and Escape are the others. */
  predicate IsLineKey(k: Key)
  {
    !(k.UpArrow? || k.DownArrow? || k.Escape?)
  }

  /** Exactly the situations in which a key makes HandleInput throw: string.Insert
      or string.Remove beyond the end of the line, or the history indexer below 0. */
  predicate Faults(s: State, k: Key)
  {
    || (k.Typed? && s.cursor > |s.buffer|)
    || (k.Backspace? && 0 < |s.buffer| < s.cursor)
    || (k.DownArrow? && s.historyPos > 1 && s.historyPos - 1 > |s.history|)
  }

  /** The effect of Enter on the editor: the line is queued and recorded in the
      history (the history is left as it was when it already holds 20 lines,
      since the line just added is the one removed), the line is emptied and the
      cursor returns to 0; the browsing position is kept. */
  function Submit(s: State): (r: State)
    ensures r.buffer == "" && r.cursor == 0
    ensures r.pending == s.pending + [s.buffer]
    ensures r.historyPos == s.historyPos
    ensures |s.history| < HistoryCapacity ==> r.history == s.history + [s.buffer]
    ensures |s.history| >= HistoryCapacity ==> r.history == s.history
  {
    var h := s.history + [s.buffer];
    var h' := if |h| > HistoryCapacity then h[..|h| - 1] else h;
    State("", 0, s.historyPos, h', s.pending + [s.buffer])
  }

  /** One key event. */
  function Edit(s: State, k: Key): (r: Result<State>)
    ensures r.Err? <==> Faults(s, k)
    ensures k.Enter? ==> r == Ok(Submit(s))
    ensures r.Ok? && !k.Enter? ==> r.value.history == s.history && r.value.pending == s.pending
    ensures r.Ok? && IsLineKey(k) ==> r.value.historyPos == s.historyPos
    ensures r.Ok? && !IsLineKey(k) ==> r.value.cursor == s.cursor
    ensures IsLineKey(k) && CursorInBounds(s) ==> r.Ok? && CursorInBounds(r.value)
    ensures HistoryInRange(s) && !k.Typed? && !k.Backspace? ==> r.Ok? && HistoryInRange(r.value)
  {
    match k
    case Enter => Ok(Submit(s))
    case Backspace =>
      if s.cursor <= 0 then Ok(s)
      else if |s.buffer| > 0 then
        if s.cursor <= |s.buffer| then
          Ok(s.(buffer := s.buffer[..s.cursor - 1] + s.buffer[s.cursor..], cursor := s.cursor - 1))
        else Err(IndexFault)
      else Ok(s)
    case Delete =>
      if s.cursor > |s.buffer| then Ok(s)
      else if s.cursor < |s.buffer| then Ok(s.(buffer := s.buffer[..s.cursor] + s.buffer[s.cursor + 1..]))
      else Ok(s)
    case Escape => HistoryUp(s)
    case UpArrow => HistoryUp(s)
    case DownArrow =>
      if s.historyPos > 1 then
        var pos := s.historyPos - 1;
        if pos <= |s.history| then Ok(s.(historyPos := pos, buffer := s.history[|s.history| - pos]))
        else Err(IndexFault)
      else Ok(s)
    case LeftArrow => if s.cursor > 0 then Ok(s.(cursor := s.cursor - 1)) else Ok(s)
    case RightArrow => if s.cursor < |s.buffer| then Ok(s.(cursor := s.cursor + 1)) else Ok(s)
    case Home => Ok(s.(cursor := 0))
    case End => Ok(s.(cursor := |s.buffer|))
    case Tab => Ok(s)
    case Typed(c) =>
      if s.cursor <= |s.buffer| then Ok(s.(buffer := s.buffer[..s.cursor] + [c] + s.buffer[s.cursor..], cursor := s.cursor + 1))
      else Err(IndexFault)
  }

  /** Up (and Escape): step one entry further back while there is one. */
  function HistoryUp(s: State): Result<State>
  {
    if s.historyPos < |s.history| then
      var pos := s.historyPos + 1;
      Ok(s.(historyPos := pos, buffer := s.history[|s.history| - pos]))
    else Ok(s)
  }

  /** A sequence of key events, stopping at the first fault. */
  function Run(s: State, keys: seq<Key>): Result<State>
    decreases |keys|
  {
    if |keys| == 0 then Ok(s)
    else match Edit(s, keys[0])
      case Err(f) => Err(f)
      case Ok(s') => Run(s', keys[1..])
  }

  // ---------------------------------------------------------------------------
  // Reference model of the line: the text before and after the cursor.

  datatype Zipper = Zipper(before: string, after: string)

  function View(s: State): Zipper
    requires CursorInBounds(s)
  {
    Zipper(s.buffer[..s.cursor], s.buffer[s.cursor..])
  }

  /** What each line key does to the text around the cursor. */
  function ZipStep(z: Zipper, k: Key): Zipper
    requires IsLineKey(k) && !k.Enter?
  {
    var n := |z.before|;
    match k
    case Typed(c) => Zipper(z.before + [c], z.after)
    case Backspace => if n == 0 then z else Zipper(z.before[..n - 1], z.after)
    case Delete => if |z.after| == 0 then z else Zipper(z.before, z.after[1..])
    case LeftArrow => if n == 0 then z else Zipper(z.before[..n - 1], [z.before[n - 1]] + z.after)
    case RightArrow => if |z.after| == 0 then z else Zipper(z.before + [z.after[0]], z.after[1..])
    case Home => Zipper("", z.before + z.after)
    case End => Zipper(z.before + z.after, "")
    case Tab => z
  }

  /** With the cursor inside the line, every line key other than Enter acts on
      the buffer exactly as on the text before and after the cursor. */
  lemma EditMatchesZipper(s: State, k: Key)
    requires CursorInBounds(s) && IsLineKey(k) && !k.Enter?
    ensures Edit(s, k).Ok? && CursorInBounds(Edit(s, k).value)
    ensures View(Edit(s, k).value) == ZipStep(View(s), k)
  {
    var r := Edit(s, k).value;
    var b := s.buffer;
    var c := s.cursor;
    match k
    case Typed(ch) =>
      assert r.buffer == b[..c] + [ch] + b[c..];
      assert r.buffer[..c + 1] == b[..c] + [ch];
      assert r.buffer[c + 1..] == b[c..];
    case Backspace =>
      if c > 0 {
        assert r.buffer[..c - 1] == b[..c - 1];
        assert r.buffer[c - 1..] == b[c..];
      }
    case Delete =>
      if c < |b| {
        assert r.buffer[..c] == b[..c];
        assert r.buffer[c..] == b[c..][1..];
      }
    case LeftArrow =>
      if c > 0 {
        assert b[..c][..c - 1] == b[..c - 1];
        assert b[c - 1..] == [b[c - 1]] + b[c..];
      }
    case RightArrow =>
      if c < |b| {
        assert b[..c + 1] == b[..c] + [b[c]];
      }
    case Home =>
      assert b[..c] + b[c..] == b;
    case End =>
      assert b[..c] + b[c..] == b;
    case Tab =>
  }

  /** Typing a character and then Backspace restores the state. */
  lemma TypedThenBackspace(s: State, ch: char)
    requires CursorInBounds(s)
    ensures Edit(s, Typed(ch)).Ok?
    ensures Edit(Edit(s, Typed(ch)).value, Backspace) == Ok(s)
  {
    var b := s.buffer;
    var c := s.cursor;
    var t := b[..c] + [ch] + b[c..];
    assert t[..c] == b[..c];
    assert t[c + 1..] == b[c..];
    assert b[..c] + b[c..] == b;
  }

  /** Delete never moves the cursor, and Backspace at the start of the line
      changes nothing. */
  lemma DeleteKeepsCursor(s: State)
    ensures Edit(s, Delete).Ok? && Edit(s, Delete).value.cursor == s.cursor
    ensures Edit(s, Delete).value.history == s.history && Edit(s, Delete).value.pending == s.pending
    ensures s.cursor == 0 ==> Edit(s, Backspace) == Ok(s)
  {
  }

  /** Left and then Right restores the state when the cursor can move left. */
  lemma LeftThenRight(s: State)
    requires 0 < s.cursor <= |s.buffer|
    ensures Edit(s, LeftArrow).Ok?
    ensures Edit(Edit(s, LeftArrow).value, RightArrow) == Ok(s)
  {
  }

  /** Escape is handled exactly like Up. */
  lemma EscapeIsUp(s: State)
    ensures Edit(s, Escape) == Edit(s, UpArrow)
  {
  }

  /** Down on the most recent history entry, or when not browsing, changes nothing. */
  lemma DownAtNewestIsNoop(s: State)
    requires s.historyPos <= 1
    ensures Edit(s, DownArrow) == Ok(s)
  {
  }

  /** The editor is showing the history entry its position designates. */
  predicate Browsing(s: State)
  {
    1 <= s.historyPos <= |s.history| && s.buffer == s.history[|s.history| - s.historyPos]
  }

  /** Up at the oldest entry (or with an empty history) changes nothing. */
  lemma UpAtOldestIsNoop(s: State)
    requires s.historyPos >= |s.history|
    ensures Edit(s, UpArrow) == Ok(s)
  {
  }

  /** Up while an older entry exists steps one entry back and shows it: from
      position 0 that is the most recent line, otherwise the line before the one
      shown. The cursor is not moved. */
  lemma UpStepsBack(s: State)
    requires s.historyPos < |s.history|
    ensures Edit(s, UpArrow).Ok?
    ensures var u := Edit(s, UpArrow).value;
            && Browsing(u) && u.historyPos == s.historyPos + 1
            && u.cursor == s.cursor && u.history == s.history && u.pending == s.pending
    ensures s.historyPos == 0 ==> Edit(s, UpArrow).value.buffer == Last(s.history)
  {
  }

  /** Down while a newer entry exists steps one entry forward and shows it.
      The cursor is not moved. */
  lemma DownStepsForward(s: State)
    requires 2 <= s.historyPos <= |s.history| + 1
    ensures Edit(s, DownArrow).Ok?
    ensures var d := Edit(s, DownArrow).value;
            && d.historyPos == s.historyPos - 1
            && d.buffer == s.history[|s.history| - s.historyPos + 1]
            && Browsing(d)
            && d.cursor == s.cursor && d.history == s.history && d.pending == s.pending
  {
  }

  /** Left, Right, Home, End and Tab never fail and change only the cursor,
      wherever it is: Left steps back unless at 0, Right steps forward unless
      at the end of the line, Home goes to 0, End to the end of the line, and
      Tab does nothing. */
  lemma CursorKeysMoveOnlyTheCursor(s: State, k: Key)
    requires k.LeftArrow? || k.RightArrow? || k.Home? || k.End? || k.Tab?
    ensures Edit(s, k).Ok? && Edit(s, k).value == s.(cursor := Edit(s, k).value.cursor)
    ensures k.Tab? ==> Edit(s, k) == Ok(s)
    ensures k.LeftArrow? ==> Edit(s, k).value.cursor == (if s.cursor > 0 then s.cursor - 1 else 0)
    ensures k.RightArrow? ==> Edit(s, k).value.cursor == (if s.cursor < |s.buffer| then s.cursor + 1 else s.cursor)
    ensures k.Home? ==> Edit(s, k).value.cursor == 0
    ensures k.End? ==> Edit(s, k).value.cursor == |s.buffer|
  {
  }

  /** Delete with no character after the cursor, and Backspace at position 0 or
      on an empty line, change nothing, wherever the cursor is. */
  lemma DeletionsWithNothingToDelete(s: State, k: Key)
    requires (k.Delete? && s.cursor >= |s.buffer|) || (k.Backspace? && (s.cursor == 0 || |s.buffer| == 0))
    ensures Edit(s, k) == Ok(s)
  {
  }

  /** With the cursor past the end of the line (as Up, Down or Escape can leave
      it), the line keys that do not throw leave the line alone: Left steps back
      by one, Home and End bring the cursor back into the line, and the rest do
      nothing. */
  lemma LineKeysPastTheEnd(s: State, k: Key)
    requires s.cursor > |s.buffer| && IsLineKey(k) && !k.Enter? && !k.Typed?
    requires !(k.Backspace? && |s.buffer| > 0)
    ensures Edit(s, k).Ok? && Edit(s, k).value.buffer == s.buffer
    ensures k.LeftArrow? ==> Edit(s, k).value.cursor == s.cursor - 1
    ensures k.Home? || k.End? ==> CursorInBounds(Edit(s, k).value)
    ensures k.Delete? || k.Tab? || k.RightArrow? || k.Backspace? ==> Edit(s, k) == Ok(s)
  {
  }

  /** Up and then Down returns to the entry being shown. */
  lemma UpThenDown(s: State)
    requires Browsing(s) && s.historyPos < |s.history|
    ensures Edit(s, UpArrow).Ok? && Browsing(Edit(s, UpArrow).value)
    ensures Edit(Edit(s, UpArrow).value, DownArrow) == Ok(s)
  {
  }

  /** Up, Down and Escape replace the line but keep the cursor, which can leave
      the cursor beyond the end of the line; typing then faults. */
  lemma UpCanBreakCursorBound()
    ensures var s := State("abc", 3, 0, ["x"], []);
            && CursorInBounds(s)
            && Edit(s, UpArrow) == Ok(State("x", 3, 1, ["x"], []))
            && !CursorInBounds(Edit(s, UpArrow).value)
            && Edit(Edit(s, UpArrow).value, Typed('y')) == Err(IndexFault)
  {
  }

  /** A history position left beyond a shrunken history makes Down fault. */
  lemma DownBeyondHistoryFaults()
    ensures Edit(State("", 0, 3, [], []), DownArrow) == Err(IndexFault)
  {
  }

  /** Any sequence of line keys, Enter included, from a state whose cursor is in
      bounds succeeds and keeps the cursor in bounds. */
  lemma {:induction false} LineKeysKeepCursorInBounds(s: State, keys: seq<Key>)
    requires CursorInBounds(s)
    requires forall i :: 0 <= i < |keys| ==> IsLineKey(keys[i])
    ensures Run(s, keys).Ok? && CursorInBounds(Run(s, keys).value)
    decreases |keys|
  {
    if |keys| > 0 {
      var s' := Edit(s, keys[0]).value;
      LineKeysKeepCursorInBounds(s', keys[1..]);
    }
  }

  /** Any sequence of keys other than typed characters and Backspace, from a
      state whose history position is in range, succeeds and keeps it in range. */
  lemma {:induction false} NavigationKeepsHistoryInRange(s: State, keys: seq<Key>)
    requires HistoryInRange(s)
    requires forall i :: 0 <= i < |keys| ==> !keys[i].Typed? && !keys[i].Backspace?
    ensures Run(s, keys).Ok? && HistoryInRange(Run(s, keys).value)
    decreases |keys|
  {
    if |keys| > 0 {
      var s' := Edit(s, keys[0]).value;
      NavigationKeepsHistoryInRange(s', keys[1..]);
    }
  }

  /** Typing with the cursor at the end of the line appends the character. */
  lemma TypedAtEndAppends(s: State, c: char)
    requires s.cursor == |s.buffer|
    ensures Edit(s, Typed(c)) == Ok(s.(buffer := s.buffer + [c], cursor := s.cursor + 1))
  {
    assert s.buffer[..s.cursor] + [c] + s.buffer[s.cursor..] == s.buffer + [c];
  }

  /** Typing and submitting "a", "b", "c" from the initial state leaves an
      empty line, those three lines in the history and in the queue, and no
      browsing position. */
  lemma SubmitThree()
    ensures Run(Initial, [Typed('a'), Enter, Typed('b'), Enter, Typed('c'), Enter])
            == Ok(State("", 0, 0, ["a", "b", "c"], ["a", "b", "c"]))
  {
    var a := Edit(Initial, Typed('a')).value;
    assert a.buffer == "a";
    var a' := Edit(a, Enter).value;
    assert a' == State("", 0, 0, ["a"], ["a"]);
    var b := Edit(a', Typed('b')).value;
    assert b.buffer == "b";
    var b' := Edit(b, Enter).value;
    assert b' == State("", 0, 0, ["a", "b"], ["a", "b"]);
    var c := Edit(b', Typed('c')).value;
    assert c.buffer == "c";
    var c' := Edit(c, Enter).value;
    assert c' == State("", 0, 0, ["a", "b", "c"], ["a", "b", "c"]);
    RunCons(Initial, Typed('a'), [Enter, Typed('b'), Enter, Typed('c'), Enter]);
    RunCons(a, Enter, [Typed('b'), Enter, Typed('c'), Enter]);
    RunCons(a', Typed('b'), [Enter, Typed('c'), Enter]);
    RunCons(b, Enter, [Typed('c'), Enter]);
    RunCons(b', Typed('c'), [Enter]);
    RunCons(c, Enter, []);
  }

  /** Submitting "a", "b", "c" and pressing Up three times shows "c", "b", "a";
      Down then shows "b" again. */
  lemma HistoryWalk()
    ensures var s3 := Run(Initial, [Typed('a'), Enter, Typed('b'), Enter, Typed('c'), Enter]);
            && s3.Ok? && s3.value.history == ["a", "b", "c"] && s3.value.historyPos == 0
            && Run(s3.value, [UpArrow]).Ok? && Run(s3.value, [UpArrow]).value.buffer == "c"
            && Run(s3.value, [UpArrow, UpArrow]).Ok? && Run(s3.value, [UpArrow, UpArrow]).value.buffer == "b"
            && Run(s3.value, [UpArrow, UpArrow, UpArrow]).Ok?
            && Run(s3.value, [UpArrow, UpArrow, UpArrow]).value.buffer == "a"
            && Run(s3.value, [UpArrow, UpArrow, UpArrow, DownArrow]).Ok?
            && Run(s3.value, [UpArrow, UpArrow, UpArrow, DownArrow]).value.buffer == "b"
  {
    SubmitThree();
    var c' := State("", 0, 0, ["a", "b", "c"], ["a", "b", "c"]);
    var u1 := Edit(c', UpArrow).value;
    assert u1 == c'.(historyPos := 1, buffer := "c");
    var u2 := Edit(u1, UpArrow).value;
    assert u2 == c'.(historyPos := 2, buffer := "b");
    var u3 := Edit(u2, UpArrow).value;
    assert u3 == c'.(historyPos := 3, buffer := "a");
    var d := Edit(u3, DownArrow).value;
    assert d.buffer == "b";
    RunCons(c', UpArrow, []);
    RunCons(c', UpArrow, [UpArrow]);
    RunCons(u1, UpArrow, []);
    RunCons(c', UpArrow, [UpArrow, UpArrow]);
    RunCons(u1, UpArrow, [UpArrow]);
    RunCons(u2, UpArrow, []);
    RunCons(c', UpArrow, [UpArrow, UpArrow, DownArrow]);
    RunCons(u1, UpArrow, [UpArrow, DownArrow]);
    RunCons(u2, UpArrow, [DownArrow]);
    RunCons(u3, DownArrow, []);
  }

  lemma RunCons(s: State, k: Key, rest: seq<Key>)
    requires Edit(s, k).Ok?
    ensures Run(s, [k] + rest) == Run(Edit(s, k).value, rest)
  {
    assert ([k] + rest)[1..] == rest;
  }
}

=== FILE: net4.dfy ===
/** The .NET 4 console (src/ConsoleManager.NET4/FastConsole.cs): the scrollback
    log wraps every write through SubstringText, its capacity shrinks with the
    number of constant lines, Start clears the Stopped flag and Stop clears the
    log, the input queue, the history and the constant-line registry. */
module Net4Console {
  import opened Common
  import opened Session
  import opened Wrap
  import Editor
  import Timing

  /** ConsoleOutputLength. */
  function Capacity(c: Console, term: Terminal): int
  {
    term.height - |c.lines.Keys| - 2
  }

  // ---------------------------------------------------------------------------
  // Scrollback log

  /** Write on a running console. A closed (or empty) log gets the wrapped text
      as new entries; an open last entry is re-wrapped together with the text,
      its first segment replacing it. Every new entry but the last carries the
      line terminator, so the text (with the open entry in front of it) is
      recovered by dropping those terminators. Nothing is evicted. */
  function WriteLog(log: seq<string>, text: string, width: int, nl: string): (r: Result<seq<string>>)
    ensures var open := LastIsOpen(log, nl);
            var kept := if open then |log| - 1 else |log|;
            var joined := if open then Last(log) + text else text;
            && (r.Ok? <==> CanSplit(joined, width, nl))
            && (r.Ok? ==>
                  && |r.value| > kept && |r.value| >= |log|
                  && r.value[..kept] == log[..kept]
                  && Unterminate(r.value[kept..], nl) == SubstringText(joined, width, nl).value
                  && Concat(Unterminate(r.value[kept..], nl)) == joined
                  && (forall i :: kept <= i < |r.value| - 1 ==>
                        EndsWith(r.value[i], nl) && |r.value[i]| == width - 1)
                  && |Last(r.value)| < width)
  {
    var open := LastIsOpen(log, nl);
    var kept := if open then |log| - 1 else |log|;
    var joined := if open then Last(log) + text else text;
    match SubstringText(joined, width, nl)
    case Err(f) => Err(f)
    case Ok(segs) =>
      var r := log[..kept] + Terminate(segs, nl);
      assert r[kept..] == Terminate(segs, nl);
      UnterminateTerminate(segs, nl);
      forall i | kept <= i < |r| - 1
        ensures EndsWith(r[i], nl) && |r[i]| == width - 1
      {
        assert r[i] == segs[i - kept] + nl;
        EndsWithAppend(segs[i - kept], nl);
      }
      Ok(r)
  }

  /** WriteLine on a running console, before eviction. A closed (or empty) log
      gets every wrapped segment as a new closed entry; an open last entry gets
      all segments, each followed by the terminator, glued onto it without
      re-wrapping. Either way the log's characters grow by exactly those
      terminated segments and the last entry ends closed. */
  function AppendLineLog(log: seq<string>, text: string, width: int, nl: string): (r: Result<seq<string>>)
    ensures r.Ok? <==> CanSplit(text, width, nl)
    ensures r.Ok? ==>
      var segs := SubstringText(text, width, nl).value;
      && |r.value| > 0 && EndsWith(Last(r.value), nl)
      && Concat(r.value) == Concat(log) + Concat(TerminateAll(segs, nl))
      && (LastIsOpen(log, nl) ==> |r.value| == |log| && r.value[..|log| - 1] == log[..|log| - 1])
      && (!LastIsOpen(log, nl) ==>
            && |r.value| == |log| + |segs|
            && r.value[..|log|] == log
            && UnterminateAll(r.value[|log|..], nl) == segs
            && Concat(UnterminateAll(r.value[|log|..], nl)) == text)
  {
    match SubstringText(text, width, nl)
    case Err(f) => Err(f)
    case Ok(segs) =>
      var pieces := TerminateAll(segs, nl);
      if LastIsOpen(log, nl) then
        var r := log[..|log| - 1] + [Last(log) + Concat(pieces)];
        GlueOntoLast(log, segs, nl);
        Ok(r)
      else
        var r := log + pieces;
        AppendAsEntries(log, segs, nl);
        Ok(r)
  }

  lemma GlueOntoLast(log: seq<string>, segs: seq<string>, nl: string)
    requires |log| > 0 && |segs| > 0
    ensures var pieces := TerminateAll(segs, nl);
            var r := log[..|log| - 1] + [Last(log) + Concat(pieces)];
            && |r| == |log| && r[..|log| - 1] == log[..|log| - 1]
            && EndsWith(Last(r), nl)
            && Concat(r) == Concat(log) + Concat(pieces)
  {
    var pieces := TerminateAll(segs, nl);
    TerminatedTextEndsClosed(segs, nl);
    EndsWithPrefixed(Last(log), Concat(pieces), nl);
    ConcatExtendLast(log, Concat(pieces));
  }

  /** The terminated segments glued together end with the terminator. */
  lemma TerminatedTextEndsClosed(segs: seq<string>, nl: string)
    requires |segs| > 0
    ensures EndsWith(Concat(TerminateAll(segs, nl)), nl)
  {
    var pieces := TerminateAll(segs, nl);
    var init := pieces[..|pieces| - 1];
    assert pieces == init + [Last(pieces)];
    ConcatAppend(init, [Last(pieces)]);
    ConcatSingle(Last(pieces));
    EndsWithAppend(Last(segs), nl);
    EndsWithPrefixed(Concat(init), Last(pieces), nl);
  }

  lemma ConcatExtendLast(log: seq<string>, x: string)
    requires |log| > 0
    ensures Concat(log[..|log| - 1] + [Last(log) + x]) == Concat(log) + x
  {
    var init := log[..|log| - 1];
    var l := log[|log| - 1];
    assert log[|log| - 1..] == [l];
    assert log == init + log[|log| - 1..];
    calc {
      Concat(init + [l + x]);
      { ConcatAppend(init, [l + x]); ConcatSingle(l + x); }
      Concat(init) + (l + x);
      (Concat(init) + l) + x;
      { ConcatAppend(init, [l]); ConcatSingle(l); }
      Concat(init + [l]) + x;
    }
  }

  lemma AppendAsEntries(log: seq<string>, segs: seq<string>, nl: string)
    requires |segs| > 0
    ensures var pieces := TerminateAll(segs, nl);
            var r := log + pieces;
            && |r| == |log| + |segs| && r[..|log|] == log
            && EndsWith(Last(r), nl)
            && Concat(r) == Concat(log) + Concat(pieces)
            && UnterminateAll(r[|log|..], nl) == segs
  {
    var pieces := TerminateAll(segs, nl);
    var r := log + pieces;
    assert r[|log|..] == pieces;
    assert Last(r) == Last(segs) + nl;
    EndsWithAppend(Last(segs), nl);
    ConcatAppend(log, pieces);
    UnterminateAllTerminateAll(segs, nl);
  }

  /** Write: a no-op on a stopped console. */
  function Write(c: Console, text: string, term: Terminal): (r: Result<Console>)
    ensures c.stopped ==> r == Ok(c)
    ensures r.Ok? ==> r.value == c.(log := r.value.log)
    ensures !c.stopped ==> r.Ok? == WriteLog(c.log, text, term.width, term.newLine).Ok?
    ensures !c.stopped && r.Ok? ==> r.value.log == WriteLog(c.log, text, term.width, term.newLine).value
  {
    if c.stopped then Ok(c)
    else
      match WriteLog(c.log, text, term.width, term.newLine)
      case Err(f) => Err(f)
      case Ok(log) => Ok(c.(log := log))
  }

  /** WriteLine: a no-op on a stopped console; otherwise the line is appended
      and at most the oldest entry is evicted when the log exceeds the capacity. */
  function WriteLine(c: Console, text: string, term: Terminal): (r: Result<Console>)
    ensures c.stopped ==> r == Ok(c)
    ensures r.Ok? ==> r.value == c.(log := r.value.log)
    ensures !c.stopped ==> (r.Ok? <==> CanSplit(text, term.width, term.newLine))
    ensures !c.stopped && r.Ok? ==>
      var pre := AppendLineLog(c.log, text, term.width, term.newLine).value;
      && r.value.log == Evict(pre, Capacity(c, term))
      && (|r.value.log| > 0 ==> EndsWith(Last(r.value.log), term.newLine))
  {
    if c.stopped then Ok(c)
    else
      match AppendLineLog(c.log, text, term.width, term.newLine)
      case Err(f) => Err(f)
      case Ok(pre) => Ok(c.(log := Evict(pre, Capacity(c, term))))
  }

  /** A text that wraps into several segments can leave the log over capacity:
      with width 4 and a one-character terminator, "abcdef" becomes three
      entries, one is evicted, and two remain against a capacity of 1. */
  lemma WriteLineCanExceedCapacity()
    ensures var term := Terminal(4, 3, "\n");
            var c := Initial;
            && Capacity(c, term) == 1
            && WriteLine(c, "abcdef", term) == Ok(c.(log := ["cd\n", "ef\n"]))
  {
    assert SubstringText("ef", 4, "\n") == Ok(["ef"]);
    assert "cdef"[..2] == "cd" && "cdef"[2..] == "ef";
    assert SubstringText("cdef"[2..], 4, "\n") == Ok(["ef"]);
    assert ["cdef"[..2]] + ["ef"] == ["cd", "ef"];
    assert SubstringText("cdef", 4, "\n") == Ok(["cd", "ef"]);
    assert "abcdef"[..2] == "ab" && "abcdef"[2..] == "cdef";
    assert SubstringText("abcdef"[2..], 4, "\n") == Ok(["cd", "ef"]);
    assert ["abcdef"[..2]] + ["cd", "ef"] == ["ab", "cd", "ef"];
    assert SubstringText("abcdef", 4, "\n") == Ok(["ab", "cd", "ef"]);
    var t := TerminateAll(["ab", "cd", "ef"], "\n");
    assert t[0] == "ab\n" && t[1] == "cd\n" && t[2] == "ef\n";
    assert t == ["ab\n", "cd\n", "ef\n"];
    assert t[1..] == ["cd\n", "ef\n"];
  }

  /** A text narrower than the screen adds at most one entry, so WriteLine keeps
      a log that is within its capacity within it. */
  lemma WriteLineOfShortTextKeepsCapacity(c: Console, text: string, term: Terminal)
    requires !c.stopped && |text| < term.width
    requires |c.log| <= Capacity(c, term)
    ensures WriteLine(c, text, term).Ok?
    ensures |WriteLine(c, text, term).value.log| <= Capacity(c, term)
  {
    ShortTextIsOneSegment(text, term.width, term.newLine);
  }

  // ---------------------------------------------------------------------------
  // Input

  /** HandleInput: a key read by the running render loop. Enter writes the line
      to the log with WriteLine before queueing it. A stopped console has no
      render loop, so nothing is read. */
  function HandleInput(c: Console, key: Editor.Key, term: Terminal): (r: Result<Console>)
    ensures c.stopped ==> r == Ok(c)
    ensures !c.stopped && !key.Enter? ==> r.Ok? == Editor.Edit(c.editor, key).Ok?
    ensures !c.stopped && key.Enter? ==> (r.Ok? <==> CanSplit(c.editor.buffer, term.width, term.newLine))
    ensures r.Ok? && !c.stopped ==> r.value.editor == Editor.Edit(c.editor, key).value
    ensures r.Ok? && !key.Enter? ==> r.value.log == c.log
    ensures r.Ok? && key.Enter? && !c.stopped ==> r.value.log == WriteLine(c, c.editor.buffer, term).value.log
    ensures r.Ok? ==> r.value.stopped == c.stopped && r.value.lines == c.lines && r.value.timing == c.timing
  {
    if c.stopped then Ok(c)
    else if key.Enter? then
      match WriteLine(c, c.editor.buffer, term)
      case Err(f) => Err(f)
      case Ok(c') => Ok(c'.(editor := Editor.Submit(c.editor)))
    else
      match Editor.Edit(c.editor, key)
      case Err(f) => Err(f)
      case Ok(e) => Ok(c.(editor := e))
  }

  // ---------------------------------------------------------------------------
  // Lifecycle and registry

  /** Stop: sets Stopped and clears the log, the input queue, the history and
      the constant lines; the line being typed, the cursor and the history
      position are kept. */
  function Stop(c: Console): (r: Console)
    ensures r.stopped && !Enabled(r)
    ensures r.log == [] && r.lines == map[] && r.editor.pending == [] && r.editor.history == []
    ensures r.editor.historyPos == c.editor.historyPos
    ensures r.editor.buffer == c.editor.buffer && r.editor.cursor == c.editor.cursor
    ensures r.timing == c.timing
  {
    Console(true, [], c.editor.(pending := [], history := []), map[], c.timing)
  }

  /** Start: stops a render loop that is still alive, clears Stopped, then sets
      the frame rate (a rate of 0 divides by zero). Thread liveness is a parameter. */
  function Start(c: Console, fps: int, threadAlive: bool): (r: Result<Console>)
    ensures r.Err? <==> fps == 0
    ensures r.Ok? ==> Enabled(r.value) && r.value.timing.fps == fps
    ensures r.Ok? ==> r.value.timing == Timing.SetScreenFps(fps).value
    ensures r.Ok? && threadAlive ==> r.value == Stop(c).(stopped := false, timing := r.value.timing)
    ensures r.Ok? && !threadAlive ==> r.value == c.(stopped := false, timing := r.value.timing)
  {
    var c1 := if threadAlive then Stop(c) else c;
    match Timing.SetScreenFps(fps)
    case Err(f) => Err(f)
    case Ok(t) => Ok(c1.(stopped := false, timing := t))
  }

  /** Every newly registered constant line takes one row from the log's
      capacity; a null provider or a repeated format takes none, and clearing
      the registry gives all rows back. */
  lemma ConstantLinesShrinkCapacity(c: Console, format: string, p: Provider, term: Terminal)
    ensures p.Delegate? && format !in c.lines ==>
      Capacity(ConstantAddLine(c, format, p), term) == Capacity(c, term) - 1
    ensures p.Null? || format in c.lines ==>
      Capacity(ConstantAddLine(c, format, p), term) == Capacity(c, term)
    ensures Capacity(ConstantClearLines(c), term) == term.height - 2
  {
    if p.Delegate? && format !in c.lines {
      assert |c.lines.Keys + {format}| == |c.lines.Keys| + 1;
    }
  }

  /** After Stop the history is empty but the history position is kept; Down
      from a position of 2 or more then indexes below the history and faults. */
  lemma DownAfterStopAndRestartFaults(c: Console, fps: int, term: Terminal)
    requires c.editor.historyPos >= 2 && fps != 0
    ensures Start(Stop(c), fps, false).Ok?
    ensures HandleInput(Start(Stop(c), fps, false).value, Editor.DownArrow, term) == Err(IndexFault)
  {
  }

  /** Stop followed by Start gives a running console with an empty log, queue,
      history and registry. */
  lemma StopThenStart(c: Console, fps: int, threadAlive: bool)
    requires fps != 0
    ensures Start(Stop(c), fps, threadAlive).Ok?
    ensures var r := Start(Stop(c), fps, threadAlive).value;
            Enabled(r) && r.log == [] && r.editor.pending == [] && r.editor.history == [] && r.lines == map[]
  {
  }
}

=== FILE: root.dfy ===
/** The root console (FastConsole.cs): the scrollback log does not wrap, its
    capacity is ScreenHeight - 2, Start never clears the Stopped flag and Stop
    clears nothing. */
module RootConsole {
  import opened Common
  import opened Session
  import Editor
  import Timing

  /** ConsoleOutputLength. */
  function Capacity(term: Terminal): int
  {
    term.height - 2
  }

  // ---------------------------------------------------------------------------
  // Scrollback log

  /** Write on a running console: the text becomes a new entry after a closed
      (or empty) log and is appended to an open last entry. The characters of
      the log grow by exactly the text; no other entry changes. */
  function WriteLog(log: seq<string>, text: string, nl: string): (r: seq<string>)
    ensures Concat(r) == Concat(log) + text
    ensures LastIsOpen(log, nl) ==> |r| == |log| && r[..|log| - 1] == log[..|log| - 1]
    ensures !LastIsOpen(log, nl) ==> |r| == |log| + 1 && r[..|log|] == log && Last(r) == text
  {
    if !LastIsOpen(log, nl) then
      ConcatAppend(log, [text]);
      ConcatSingle(text);
      log + [text]
    else
      var n := |log|;
      var init := log[..n - 1];
      var l := log[n - 1];
      assert log[n - 1..] == [l];
      assert log == init + log[n - 1..];
      ConcatAppend(init, [l]);
      ConcatAppend(init, [l + text]);
      ConcatSingle(l);
      ConcatSingle(l + text);
      init + [l + text]
  }

  /** WriteLine on a running console: the text and the terminator are written
      as by Write, then the oldest entry is evicted if the log exceeds the capacity. */
  function WriteLineLog(log: seq<string>, text: string, nl: string, cap: int): (r: seq<string>)
    ensures |r| > 0 ==> EndsWith(Last(r), nl)
    ensures |log| <= cap ==> |r| <= cap
    ensures |r| <= |log| + 1
    ensures r == Evict(WriteLog(log, text + nl, nl), cap)
  {
    var pre := WriteLog(log, text + nl, nl);
    EndsWithAppend(text, nl);
    assert EndsWith(Last(pre), nl) by {
      if LastIsOpen(log, nl) {
        assert Last(pre) == Last(log) + (text + nl);
        EndsWithPrefixed(Last(log), text + nl, nl);
      }
    }
    Evict(pre, cap)
  }

  /** Write: a no-op on a stopped console. */
  function Write(c: Console, text: string, term: Terminal): (r: Console)
    ensures c.stopped ==> r == c
    ensures r == c.(log := r.log)
    ensures !c.stopped ==> r.log == WriteLog(c.log, text, term.newLine)
    ensures !c.stopped ==> Concat(r.log) == Concat(c.log) + text
  {
    if c.stopped then c else c.(log := WriteLog(c.log, text, term.newLine))
  }

  /** WriteLine: a no-op on a stopped console. */
  function WriteLine(c: Console, text: string, term: Terminal): (r: Console)
    ensures c.stopped ==> r == c
    ensures r == c.(log := r.log)
    ensures !c.stopped ==> r.log == WriteLineLog(c.log, text, term.newLine, Capacity(term))
    ensures !c.stopped && |r.log| > 0 ==> EndsWith(Last(r.log), term.newLine)
    ensures |c.log| <= Capacity(term) ==> |r.log| <= Capacity(term)
  {
    if c.stopped then c else c.(log := WriteLineLog(c.log, text, term.newLine, Capacity(term)))
  }

  /** Write("ab") then Write("cd") on a closed or empty log gives one new entry
      "abcd"; WriteLine("ab") then Write("cd") gives "ab" + terminator and "cd". */
  lemma OpenLineAppend(log: seq<string>, nl: string, cap: int)
    requires ValidNewLine(nl) && !LastIsOpen(log, nl)
    requires |log| + 1 <= cap
    ensures WriteLog(WriteLog(log, "ab", nl), "cd", nl) == log + ["abcd"]
    ensures WriteLog(WriteLineLog(log, "ab", nl, cap), "cd", nl) == log + ["ab" + nl, "cd"]
  {
    var w1 := WriteLog(log, "ab", nl);
    assert w1 == log + ["ab"];
    assert !EndsWith("ab", nl);
    assert LastIsOpen(w1, nl);
    assert w1[..|w1| - 1] == log;
    assert "ab" + "cd" == "abcd";
    assert WriteLog(w1, "cd", nl) == log + ["ab" + "cd"];
    var l1 := WriteLineLog(log, "ab", nl, cap);
    assert l1 == log + ["ab" + nl];
    EndsWithAppend("ab", nl);
    assert !LastIsOpen(l1, nl);
  }

  /** Write never evicts, so it can take the log past the capacity. */
  lemma WriteCanExceedCapacity()
    ensures var term := Terminal(80, 3, "\n");
            && |Initial.log| <= Capacity(term)
            && |Write(Write(WriteLine(Initial, "a", term), "\n", term), "b", term).log| > Capacity(term)
  {
    var term := Terminal(80, 3, "\n");
    var c1 := WriteLine(Initial, "a", term);
    assert "a" + "\n" == "a\n";
    assert WriteLog([], "a\n", "\n") == ["a\n"];
    assert c1.log == ["a\n"];
    EndsWithAppend("a", "\n");
    var c2 := Write(c1, "\n", term);
    assert c2.log == ["a\n", "\n"];
    EndsWithAppend("", "\n");
    assert |Write(c2, "b", term).log| == 3;
  }

  // ---------------------------------------------------------------------------
  // Input

  /** HandleInput: a key read by the running render loop; Enter also writes the
      line to the log. A stopped console has no render loop. */
  function HandleInput(c: Console, key: Editor.Key, term: Terminal): (r: Result<Console>)
    ensures c.stopped ==> r == Ok(c)
    ensures !c.stopped ==> r.Ok? == Editor.Edit(c.editor, key).Ok?
    ensures r.Ok? && !c.stopped ==> r.value.editor == Editor.Edit(c.editor, key).value
    ensures r.Ok? && !key.Enter? ==> r.value.log == c.log
    ensures r.Ok? && key.Enter? && !c.stopped ==> r.value.log == WriteLine(c, c.editor.buffer, term).log
    ensures r.Ok? ==> r.value.stopped == c.stopped && r.value.lines == c.lines && r.value.timing == c.timing
  {
    if c.stopped then Ok(c)
    else if key.Enter? then
      Ok(WriteLine(c, c.editor.buffer, term).(editor := Editor.Submit(c.editor)))
    else
      match Editor.Edit(c.editor, key)
      case Err(f) => Err(f)
      case Ok(e) => Ok(c.(editor := e))
  }

  // ---------------------------------------------------------------------------
  // Lifecycle

  /** Stop: sets Stopped and nothing else. */
  function Stop(c: Console): (r: Console)
    ensures !Enabled(r) && r == c.(stopped := true)
  {
    c.(stopped := true)
  }

  /** Start: stops a render loop that is still alive, then sets the frame rate
      (a rate of 0 divides by zero). Stopped is never cleared. */
  function Start(c: Console, fps: int, threadAlive: bool): (r: Result<Console>)
    ensures r.Err? <==> fps == 0
    ensures r.Ok? ==> r.value.timing.fps == fps
    ensures r.Ok? ==> r.value.timing == Timing.SetScreenFps(fps).value
    ensures r.Ok? ==> r.value == c.(stopped := c.stopped || threadAlive, timing := r.value.timing)
  {
    var c1 := if threadAlive then Stop(c) else c;
    match Timing.SetScreenFps(fps)
    case Err(f) => Err(f)
    case Ok(t) => Ok(c1.(timing := t))
  }

  // ---------------------------------------------------------------------------
  // Sequences of public calls

  datatype Call =
    | StartCall(fps: int, threadAlive: bool)
    | StopCall
    | WriteCall(text: string)
    | WriteLineCall(text: string)
    | ClearOutputCall
    | KeyCall(key: Editor.Key)
    | ReadLineCall
    | AddLineCall(format: string, provider: Provider)
    | ClearLinesCall

  function Apply(c: Console, call: Call, term: Terminal): Result<Console>
  {
    match call
    case StartCall(fps, alive) => Start(c, fps, alive)
    case StopCall => Ok(Stop(c))
    case WriteCall(t) => Ok(Write(c, t, term))
    case WriteLineCall(t) => Ok(WriteLine(c, t, term))
    case ClearOutputCall => Ok(ClearOutput(c))
    case KeyCall(k) => HandleInput(c, k, term)
    case ReadLineCall => (match ReadLine(c) case Err(f) => Err(f) case Ok(p) => Ok(p.1))
    case AddLineCall(f, p) => Ok(ConstantAddLine(c, f, p))
    case ClearLinesCall => Ok(ConstantClearLines(c))
  }

  function ApplyAll(c: Console, calls: seq<Call>, term: Terminal): Result<Console>
    decreases |calls|
  {
    if |calls| == 0 then Ok(c)
    else match Apply(c, calls[0], term)
      case Err(f) => Err(f)
      case Ok(c') => ApplyAll(c', calls[1..], term)
  }

  /** Once stopped, the root console stays stopped whatever is called, and its
      log, input queue, history and line being typed never change again. */
  lemma {:induction false} StoppedIsPermanent(c: Console, calls: seq<Call>, term: Terminal)
    requires c.stopped
    ensures ApplyAll(c, calls, term).Ok? ==>
      var r := ApplyAll(c, calls, term).value;
      r.stopped && r.log == c.log && r.editor == c.editor
    decreases |calls|
  {
    if |calls| > 0 {
      match Apply(c, calls[0], term)
      case Err(_) =>
      case Ok(c') =>
        assert c'.stopped && c'.log == c.log && c'.editor == c.editor;
        StoppedIsPermanent(c', calls[1..], term);
    }
  }

  /** The running console of the ping scenario after "hello" was written, with
      `typed` on the input line and the cursor after it. */
  function Hello(t: Timing.FrameTiming, typed: string): Console
  {
    Console(false, ["hello\n"], Editor.State(typed, |typed|, 0, [], []), map[], t)
  }

  /** One character of the ping scenario appended to the input line. */
  lemma PingKeyStep(t: Timing.FrameTiming, typed: string, x: char, rest: seq<Call>)
    ensures ApplyAll(Hello(t, typed), [KeyCall(Editor.Typed(x))] + rest, Terminal(80, 25, "\n"))
            == ApplyAll(Hello(t, typed + [x]), rest, Terminal(80, 25, "\n"))
  {
    Editor.TypedAtEndAppends(Hello(t, typed).editor, x);
    assert ([KeyCall(Editor.Typed(x))] + rest)[1..] == rest;
  }

  /** Enter on "ping" after one closed entry adds "ping" as a second closed
      entry, queues it and records it in the history. */
  lemma PingEnter(t: Timing.FrameTiming)
    ensures ApplyAll(Hello(t, "ping"), [KeyCall(Editor.Enter)], Terminal(80, 25, "\n"))
            == Ok(Console(false, ["hello\n", "ping\n"], Editor.State("", 0, 0, ["ping"], ["ping"]), map[], t))
  {
    EndsWithAppend("hello", "\n");
    assert "hello" + "\n" == "hello\n";
    assert "ping" + "\n" == "ping\n";
    assert !LastIsOpen(["hello\n"], "\n");
    assert WriteLog(["hello\n"], "ping\n", "\n") == ["hello\n", "ping\n"];
    assert Evict(["hello\n", "ping\n"], Capacity(Terminal(80, 25, "\n"))) == ["hello\n", "ping\n"];
    assert [] + ["ping"] == ["ping"];
  }

  /** Typing "ping" and Enter in the ping scenario. */
  lemma PingKeys(t: Timing.FrameTiming)
    ensures ApplyAll(Hello(t, ""), [KeyCall(Editor.Typed('p')), KeyCall(Editor.Typed('i')),
                                    KeyCall(Editor.Typed('n')), KeyCall(Editor.Typed('g')),
                                    KeyCall(Editor.Enter)], Terminal(80, 25, "\n"))
            == Ok(Console(false, ["hello\n", "ping\n"], Editor.State("", 0, 0, ["ping"], ["ping"]), map[], t))
  {
    var enter := [KeyCall(Editor.Enter)];
    var g := [KeyCall(Editor.Typed('g'))] + enter;
    var n := [KeyCall(Editor.Typed('n'))] + g;
    var i := [KeyCall(Editor.Typed('i'))] + n;
    assert [KeyCall(Editor.Typed('p'))] + i
        == [KeyCall(Editor.Typed('p')), KeyCall(Editor.Typed('i')),
            KeyCall(Editor.Typed('n')), KeyCall(Editor.Typed('g')), KeyCall(Editor.Enter)];
    PingKeyStep(t, "", 'p', i);
    assert "" + ['p'] == "p";
    PingKeyStep(t, "p", 'i', n);
    assert "p" + ['i'] == "pi";
    PingKeyStep(t, "pi", 'n', g);
    assert "pi" + ['n'] == "pin";
    PingKeyStep(t, "pin", 'g', enter);
    assert "pin" + ['g'] == "ping";
    PingEnter(t);
  }

  /** Typing "ping" and Enter on a started console queues "ping"; ReadLine
      returns it once, leaves no input available, and a second ReadLine faults. */
  lemma PingScenario()
    ensures var term := Terminal(80, 25, "\n");
            var started := Start(Initial, 20, false);
            && started.Ok?
            && var c0 := WriteLine(started.value, "hello", term);
            && c0.log == ["hello\n"] && !InputAvailable(c0)
            && var typed := ApplyAll(c0, [KeyCall(Editor.Typed('p')), KeyCall(Editor.Typed('i')),
                                          KeyCall(Editor.Typed('n')), KeyCall(Editor.Typed('g')),
                                          KeyCall(Editor.Enter)], term);
            && typed.Ok? && typed.value.editor.pending == ["ping"] && InputAvailable(typed.value)
            && typed.value.log == ["hello\n", "ping\n"]
            && ReadLine(typed.value).Ok? && ReadLine(typed.value).value.0 == "ping"
            && !InputAvailable(ReadLine(typed.value).value.1)
            && ReadLine(ReadLine(typed.value).value.1) == Err(QueueEmpty)
  {
    var term := Terminal(80, 25, "\n");
    var started := Start(Initial, 20, false).value;
    var c0 := WriteLine(started, "hello", term);
    assert "hello" + "\n" == "hello\n";
    assert WriteLog([], "hello\n", "\n") == ["hello\n"];
    assert c0 == Hello(started.timing, "");
    PingKeys(started.timing);
  }
}

=== FILE: screen.dfy ===
/** Placement of text into the screen buffer (`DrawLine` / `DrawLineInternal`).
    A text wider than the screen is cut into rows of `width` characters that go
    to consecutive rows starting at the moving row counter; rows at or past the
    end of the buffer are counted but not stored. The .NET 4 console stores the
    row text as it is, the root console pads every stored row to the width. */
module Screen {
  import opened Common

  datatype RowStyle = Raw | Padded

  /** ScreenBuffer (one string per row) and the CurrentLine row counter. */
  datatype Grid = Grid(rows: seq<string>, line: nat)

  /** The characters stored for one row of text. */
  function Render(text: string, width: nat, style: RowStyle): (r: string)
    ensures |text| <= |r| && r[..|text|] == text
    ensures style.Raw? ==> |r| == |text|
    ensures style.Padded? && |text| <= width ==> |r| == width
    ensures style.Padded? ==> forall i :: |text| <= i < |r| ==> r[i] == ' '
  {
    match style
    case Raw => text
    case Padded => PadRight(text, width)
  }

  /** DrawLineInternal(text): store the row if the counter is inside the buffer,
      then advance the counter. */
  function DrawLineInternal(g: Grid, text: string, width: nat, style: RowStyle): (r: Grid)
    ensures r.line == g.line + 1 && |r.rows| == |g.rows|
    ensures forall i :: 0 <= i < |g.rows| && i != g.line ==> r.rows[i] == g.rows[i]
    ensures g.line < |g.rows| ==> r.rows[g.line] == Render(text, width, style)
  {
    if g.line < |g.rows| then Grid(g.rows[g.line := Render(text, width, style)], g.line + 1)
    else Grid(g.rows, g.line + 1)
  }

  /** The rows a text occupies: cut after every `width` characters while the
      rest is wider than the screen. */
  function Pieces(text: string, width: nat): (p: seq<string>)
    requires |text| <= width || width > 0
    ensures |p| >= 1 && Concat(p) == text
    ensures forall i :: 0 <= i < |p| ==> |p[i]| <= width
    ensures forall i :: 0 <= i < |p| - 1 ==> |p[i]| == width
    decreases |text|
  {
    if |text| > width then
      var rest := Pieces(text[width..], width);
      assert ([text[..width]] + rest)[1..] == rest;
      [text[..width]] + rest
    else
      ConcatSingle(text);
      [text]
  }

  /** DrawLine(text): the recursive row placement. A text wider than a screen of
      width 0 recurses forever on the same text, and a negative width makes
      Substring throw; both are faults. */
  function DrawLine(g: Grid, text: string, width: int, style: RowStyle): (r: Result<Grid>)
    ensures r.Ok? <==> (|text| <= width || width > 0)
    ensures r.Ok? ==>
      var p := Pieces(text, width);
      && r.value.line == g.line + |p|
      && |r.value.rows| == |g.rows|
      && forall i :: 0 <= i < |g.rows| ==>
           r.value.rows[i] == if g.line <= i < r.value.line then Render(p[i - g.line], width, style) else g.rows[i]
    decreases |text|
  {
    if |text| > width then
      if width <= 0 then Err(DrawFault)
      else
        var g' := DrawLineInternal(g, text[..width], width, style);
        var r := DrawLine(g', text[width..], width, style);
        assert Pieces(text, width) == [text[..width]] + Pieces(text[width..], width);
        r
    else
      Ok(DrawLineInternal(g, text, width, style))
  }

  /** The number of rows a text occupies is max(1, ceil(|text| / width)). */
  lemma {:induction false} RowCount(text: string, width: nat)
    requires width > 0
    ensures |Pieces(text, width)| == if |text| <= width then 1 else (|text| + width - 1) / width
    decreases |text|
  {
    if |text| > width {
      var n := |text|;
      RowCount(text[width..], width);
      if n - width <= width {
        DivBetween(n + width - 1, width, 2);
      } else {
        DivShift(n - 1, width);
      }
    }
  }

  /** Every stored row of the root console is exactly as wide as the screen. */
  lemma PaddedRowsHaveScreenWidth(g: Grid, text: string, width: nat)
    requires width > 0
    ensures DrawLine(g, text, width, Padded).Ok?
    ensures var r := DrawLine(g, text, width, Padded).value;
            forall i :: g.line <= i < r.line && i < |r.rows| ==> |r.rows[i]| == width
  {
  }

  /** When all rows of a text fit into the buffer, the stored rows of the .NET 4
      console read back as the text itself. */
  lemma RawRowsReassembleText(g: Grid, text: string, width: nat)
    requires width > 0
    requires g.line + |Pieces(text, width)| <= |g.rows|
    ensures DrawLine(g, text, width, Raw).Ok?
    ensures var r := DrawLine(g, text, width, Raw).value;
            Concat(r.rows[g.line .. r.line]) == text
  {
    var p := Pieces(text, width);
    var r := DrawLine(g, text, width, Raw).value;
    assert r.rows[g.line .. r.line] == p;
  }

  /** Once the row counter is past the end of the buffer, nothing is stored. */
  lemma RowsPastBufferAreDropped(g: Grid, text: string, width: nat)
    requires width > 0 && g.line >= |g.rows|
    ensures DrawLine(g, text, width, Raw).Ok? && DrawLine(g, text, width, Raw).value.rows == g.rows
    ensures DrawLine(g, text, width, Padded).Ok? && DrawLine(g, text, width, Padded).value.rows == g.rows
  {
  }

  /** DrawLine(text, y): only the part of the text that fits into one row is
      stored, at row `y`, if `y` is inside the buffer; the row counter is not used. */
  function DrawLineAt(g: Grid, text: string, y: nat, width: int, style: RowStyle): (r: Result<Grid>)
    ensures r.Ok? <==> width >= 0
    ensures r.Ok? ==>
      && r.value.line == g.line
      && |r.value.rows| == |g.rows|
      && (forall i :: 0 <= i < |g.rows| && i != y ==> r.value.rows[i] == g.rows[i])
      && (y < |g.rows| ==>
            var shown := if |text| <= width then |text| else width;
            && shown <= |r.value.rows[y]| && r.value.rows[y][..shown] == text[..shown]
            && (style.Raw? ==> |r.value.rows[y]| == shown)
            && (style.Padded? ==> |r.value.rows[y]| == width)
            && r.value.rows[y] == Render(text[..shown], width, style))
  {
    if |text| > width then
      if width < 0 then Err(DrawFault) else Ok(StoreRow(g, text[..width], y, width, style))
    else
      Ok(StoreRow(g, text, y, width, style))
  }

  /** DrawLineInternal(text, y): row `y` is replaced when it is inside the
      buffer; no other row and not the row counter changes. */
  function StoreRow(g: Grid, text: string, y: nat, width: nat, style: RowStyle): (r: Grid)
    ensures r.line == g.line && |r.rows| == |g.rows|
    ensures forall i :: 0 <= i < |g.rows| && i != y ==> r.rows[i] == g.rows[i]
    ensures y < |g.rows| ==> r.rows[y] == Render(text, width, style)
    ensures y >= |g.rows| ==> r == g
  {
    if y < |g.rows| then g.(rows := g.rows[y := Render(text, width, style)]) else g
  }
}

=== FILE: session.dfy ===
/** The console state and the operations both console versions implement
    identically: the non-blocking ReadLine, the Enabled and InputAvailable
    flags, ClearOutput and the constant-line registry. */
module Session {
  import opened Common
  import Editor
  import Timing

  /** The provider argument of ConstantAddLine: null, or a delegate. What a
      delegate computes is not modelled; `id` tells delegates apart. */
  datatype Provider = Null | Delegate(id: nat)

  /** The console's static fields. The constant-line registry maps each format
      string to the identity of the delegate registered for it. */
  datatype Console = Console(
    stopped: bool,
    log: seq<string>,          // ConsoleOutput
    editor: Editor.State,
    lines: map<string, nat>,   // ConstantLines
    timing: Timing.FrameTiming)

  /** The static fields' initial values. */
  const Initial := Console(false, [], Editor.Initial, map[], Timing.FrameTiming(0, 0))

  /** ReadLine: "" on a stopped console, otherwise the oldest queued line;
      an empty queue makes Dequeue throw. */
  function ReadLine(c: Console): (r: Result<(string, Console)>)
    ensures c.stopped ==> r == Ok(("", c))
    ensures !c.stopped ==> (r.Ok? <==> |c.editor.pending| > 0)
    ensures !c.stopped && r.Ok? ==>
      && [r.value.0] + r.value.1.editor.pending == c.editor.pending
      && r.value.1 == c.(editor := c.editor.(pending := c.editor.pending[1..]))
  {
    if c.stopped then Ok(("", c))
    else if |c.editor.pending| == 0 then Err(QueueEmpty)
    else Ok((c.editor.pending[0], c.(editor := c.editor.(pending := c.editor.pending[1..]))))
  }

  predicate InputAvailable(c: Console)
  {
    !c.stopped && |c.editor.pending| > 0
  }

  predicate Enabled(c: Console)
  {
    !c.stopped
  }

  /** On a running console ReadLine succeeds exactly when input is available. */
  lemma ReadLineSucceedsIffAvailable(c: Console)
    requires Enabled(c)
    ensures ReadLine(c).Ok? <==> InputAvailable(c)
  {
  }

  /** ClearOutput: empties the log of a running console. */
  function ClearOutput(c: Console): (r: Console)
    ensures c.stopped ==> r == c
    ensures !c.stopped ==> r == c.(log := [])
  {
    if c.stopped then c else c.(log := [])
  }

  /** ConstantAddLine (TryAdd): a null provider is ignored, and so is a format
      that is already registered; otherwise the format is registered with the
      given delegate. Nothing else changes. */
  function ConstantAddLine(c: Console, format: string, p: Provider): (r: Console)
    ensures r == c.(lines := r.lines)
    ensures p.Null? || format in c.lines ==> r == c
    ensures p.Delegate? && format !in c.lines ==>
      && format in r.lines && r.lines[format] == p.id
      && forall f :: f in c.lines ==> f in r.lines && r.lines[f] == c.lines[f]
    ensures r.lines.Keys == if p.Delegate? then c.lines.Keys + {format} else c.lines.Keys
  {
    if p.Delegate? && format !in c.lines then c.(lines := c.lines[format := p.id]) else c
  }

  /** ConstantClearLines: the registry becomes empty; nothing else changes. */
  function ConstantClearLines(c: Console): (r: Console)
    ensures r.lines == map[] && r == c.(lines := r.lines)
  {
    c.(lines := map[])
  }

  /** The first delegate registered for a format is the one kept: a later
      registration of the same format, with any provider, changes nothing. */
  lemma FirstRegistrationWins(c: Console, format: string, first: nat, later: Provider)
    requires format !in c.lines
    ensures var once := ConstantAddLine(c, format, Delegate(first));
            && once.lines[format] == first
            && ConstantAddLine(once, format, later) == once
            && ConstantAddLine(once, format, later).lines[format] == first
  {
  }
}

=== FILE: timing.dfy ===
/** The frame-rate settings: the public `ScreenFPS` setter derives the tick
    interval in milliseconds from the frame rate, and the private
    `ExcecutionMilliseconds` setter derives the frame rate from the interval.
    Both use C# integer division of the constant 1000 and both are the same in
    the two console versions. */
module Timing {
  import opened Common

  const MillisecondsPerSecond := 1000

  /** The pair of fields the two setters keep in step. */
  datatype FrameTiming = FrameTiming(fps: int, intervalMs: int)

  /** ScreenFPS = fps. Division by zero when fps is 0. For a positive rate the
      interval is the largest whole number of milliseconds that fits fps times
      into one second; a negative rate (which the setter accepts) gives the
      negated interval of the positive rate, as C# division truncates toward zero. */
  function SetScreenFps(fps: int): (r: Result<FrameTiming>)
    ensures r.Err? <==> fps == 0
    ensures r.Ok? ==> r.value.fps == fps
    ensures r.Ok? && fps > 0 ==>
      r.value.intervalMs >= 0 && r.value.intervalMs * fps <= MillisecondsPerSecond < (r.value.intervalMs + 1) * fps
    ensures r.Ok? && fps < 0 ==>
      r.value.intervalMs <= 0 && Abs(r.value.intervalMs) * -fps <= MillisecondsPerSecond < (Abs(r.value.intervalMs) + 1) * -fps
  {
    if fps == 0 then Err(DivideByZero)
    else
      var ms := TruncDiv(MillisecondsPerSecond, fps);
      Ok(FrameTiming(fps, ms))
  }

  /** ExcecutionMilliseconds = ms: the inverse setter, with the same rounding. */
  function SetInterval(ms: int): (r: Result<FrameTiming>)
    ensures r.Err? <==> ms == 0
    ensures r.Ok? ==> r.value.intervalMs == ms
    ensures r.Ok? && ms > 0 ==>
      r.value.fps >= 0 && r.value.fps * ms <= MillisecondsPerSecond < (r.value.fps + 1) * ms
    ensures r.Ok? && ms < 0 ==>
      r.value.fps <= 0 && Abs(r.value.fps) * -ms <= MillisecondsPerSecond < (Abs(r.value.fps) + 1) * -ms
  {
    if ms == 0 then Err(DivideByZero)
    else
      var fps := TruncDiv(MillisecondsPerSecond, ms);
      Ok(FrameTiming(fps, ms))
  }

  /** A frame rate that divides 1000 survives the round trip through the interval. */
  lemma {:induction false} RoundTripWhenRateDividesSecond(fps: int)
    requires fps > 0 && MillisecondsPerSecond % fps == 0
    ensures SetScreenFps(fps).Ok?
    ensures var ms := SetScreenFps(fps).value.intervalMs;
            SetInterval(ms).Ok? && SetInterval(ms).value.fps == fps
  {
    var ms := SetScreenFps(fps).value.intervalMs;
    assert ms * fps == MillisecondsPerSecond by {
      assert MillisecondsPerSecond == (MillisecondsPerSecond / fps) * fps + MillisecondsPerSecond % fps;
    }
    assert ms > 0;
    var f := SetInterval(ms).value.fps;
    assert f * ms <= ms * fps < (f + 1) * ms;
  }

  /** The round trip is not exact in general: 600 frames per second give an
      interval of 1 ms, and 1 ms gives back 1000 frames per second. */
  lemma RoundTripNotExact()
    ensures SetScreenFps(600) == Ok(FrameTiming(600, 1))
    ensures SetInterval(1) == Ok(FrameTiming(1000, 1))
  {
  }

  /** A negative rate is accepted and gives a negative interval: 1000 / -3 is
      -333 in C#, where Euclidean division would give -334. */
  lemma NegativeRateTruncates()
    ensures SetScreenFps(-3) == Ok(FrameTiming(-3, -333))
  {
  }

  /** Above 1000 frames per second the interval is 0, and setting that interval
      back divides by zero. */
  lemma FastRateGivesZeroInterval(fps: int)
    requires fps > MillisecondsPerSecond
    ensures SetScreenFps(fps).Ok? && SetScreenFps(fps).value.intervalMs == 0
    ensures SetInterval(SetScreenFps(fps).value.intervalMs).Err?
  {
  }
}

=== FILE: wrap.dfy ===
/** Line wrapping of the .NET 4 console (`SubstringText`): text at least as wide
    as the screen is cut into segments of `width - 1 - |newLine|` characters,
    leaving room for the line terminator that `Write`/`WriteLine` add after each
    segment, until the remainder is narrower than the screen. */
module Wrap {
  import opened Common

  /** Length of every cut segment. */
  function SegmentLength(width: int, nl: string): int
  {
    width - 1 - |nl|
  }

  /** The split completes without a fault: either nothing has to be cut, or the
      cut length is positive (a negative length makes Substring throw, a zero
      length makes the recursion call itself on the same text forever). */
  predicate CanSplit(text: string, width: int, nl: string)
  {
    |text| < width || SegmentLength(width, nl) > 0
  }

  /** Segments of a successful split: at least one, every non-final one exactly
      SegmentLength long, the final one narrower than the screen. */
  predicate WellCut(segs: seq<string>, width: int, nl: string)
  {
    && |segs| >= 1
    && (forall i :: 0 <= i < |segs| - 1 ==> |segs[i]| == SegmentLength(width, nl))
    && |Last(segs)| < width
  }

  /** SubstringText(text, list): the segments it appends to `list`, or the fault. */
  function SubstringText(text: string, width: int, nl: string): (r: Result<seq<string>>)
    ensures r.Ok? <==> CanSplit(text, width, nl)
    ensures r.Ok? ==> WellCut(r.value, width, nl) && Concat(r.value) == text
    ensures r.Ok? ==> forall i :: 0 <= i < |r.value| - 1 ==> |Concat(r.value[i..])| >= width
    decreases |text|
  {
    if |text| >= width then
      var n := SegmentLength(width, nl);
      if n <= 0 then Err(WrapFault)
      else
        match SubstringText(text[n..], width, nl)
        case Err(f) => Err(f)
        case Ok(rest) =>
          var segs := [text[..n]] + rest;
          assert segs[1..] == rest;
          assert forall i :: 1 <= i < |segs| ==> segs[i..] == rest[i - 1..];
          Ok(segs)
    else
      ConcatSingle(text);
      Ok([text])
  }

  /** Segment `i` is the slice of the text at offset `i * SegmentLength`, and a
      cut was made there only because the rest of the text from that offset was
      still at least as wide as the screen; the last segment ends the text. */
  lemma SegmentOffsets(text: string, width: int, nl: string, i: nat)
    requires SubstringText(text, width, nl).Ok?
    requires i < |SubstringText(text, width, nl).value|
    ensures var segs := SubstringText(text, width, nl).value;
            var off := i * SegmentLength(width, nl);
            && 0 <= off && off + |segs[i]| <= |text|
            && segs[i] == text[off .. off + |segs[i]|]
            && (i < |segs| - 1 ==> |text| - off >= width)
            && (i == |segs| - 1 ==> off + |segs[i]| == |text| && |text| - off < width)
  {
    var segs := SubstringText(text, width, nl).value;
    SegmentsAreSlices(segs, text, SegmentLength(width, nl), i);
    SuffixFrom(segs, text, SegmentLength(width, nl), i);
    StrideIsProduct(i, SegmentLength(width, nl));
  }

  /** The contract of SubstringText determines its result: any list of segments
      that is well cut, spells the text and was cut only while the rest of the
      text was at least as wide as the screen is the one SubstringText returns. */
  lemma {:induction false} CutIsUnique(segs: seq<string>, text: string, width: int, nl: string)
    requires CanSplit(text, width, nl)
    requires WellCut(segs, width, nl) && Concat(segs) == text
    requires forall i :: 0 <= i < |segs| - 1 ==> |Concat(segs[i..])| >= width
    ensures SubstringText(text, width, nl) == Ok(segs)
    decreases |segs|
  {
    var n := SegmentLength(width, nl);
    assert text == segs[0] + Concat(segs[1..]);
    if |segs| == 1 {
      assert segs[1..] == [];
      assert text == segs[0] == Last(segs);
      assert |text| < width;
      assert segs == [text];
    } else {
      assert segs[0..] == segs;
      assert |text| >= width && n > 0 && |segs[0]| == n;
      assert text[..n] == segs[0];
      assert text[n..] == Concat(segs[1..]);
      var rest := segs[1..];
      forall i | 0 <= i < |rest| - 1
        ensures |Concat(rest[i..])| >= width
      {
        assert rest[i..] == segs[i + 1..];
      }
      assert Last(rest) == Last(segs);
      CutIsUnique(rest, text[n..], width, nl);
      assert [text[..n]] + rest == segs;
    }
  }

  /** The cutting stops as soon as the rest is narrower than the screen: 17
      characters at width 10 with "\n" make a segment of 8 and one of 9. */
  lemma SeventeenCharactersAtWidthTen()
    ensures SubstringText("abcdefghijklmnopq", 10, "\n") == Ok(["abcdefgh", "ijklmnopq"])
  {
    var segs := ["abcdefgh", "ijklmnopq"];
    assert segs[1..] == ["ijklmnopq"];
    ConcatSingle("ijklmnopq");
    assert Concat(segs) == "abcdefgh" + "ijklmnopq";
    assert "abcdefgh" + "ijklmnopq" == "abcdefghijklmnopq";
    assert segs[0..] == segs;
    CutIsUnique(segs, "abcdefghijklmnopq", 10, "\n");
  }

  /** A text narrower than the screen stays one segment, unchanged. */
  lemma ShortTextIsOneSegment(text: string, width: int, nl: string)
    requires |text| < width
    ensures SubstringText(text, width, nl) == Ok([text])
  {
  }

  /** The empty text still yields one (empty) segment whenever it can be split. */
  lemma EmptyTextIsOneSegment(width: int, nl: string)
    requires CanSplit("", width, nl)
    ensures SubstringText("", width, nl).Ok?
    ensures SubstringText("", width, nl).value == [""]
  {
  }

  /** Terminate(segs): the entries Write stores — every segment but the last
      followed by the line terminator. */
  function Terminate(segs: seq<string>, nl: string): (r: seq<string>)
    requires |segs| >= 1
    ensures |r| == |segs|
    ensures forall i :: 0 <= i < |r| - 1 ==> r[i] == segs[i] + nl
    ensures Last(r) == Last(segs)
  {
    seq(|segs|, i requires 0 <= i < |segs| => if i < |segs| - 1 then segs[i] + nl else segs[i])
  }

  /** TerminateAll(segs): the pieces WriteLine stores — every segment followed
      by the line terminator. */
  function TerminateAll(segs: seq<string>, nl: string): (r: seq<string>)
    ensures |r| == |segs|
    ensures forall i :: 0 <= i < |r| ==> r[i] == segs[i] + nl
  {
    seq(|segs|, i requires 0 <= i < |segs| => segs[i] + nl)
  }

  /** Removes one trailing line terminator, if present. */
  function Strip(e: string, nl: string): (r: string)
    ensures EndsWith(e, nl) ==> r + nl == e
    ensures !EndsWith(e, nl) ==> r == e
  {
    if EndsWith(e, nl) then e[..|e| - |nl|] else e
  }

  /** The inverse of Terminate: every entry but the last loses its terminator. */
  function Unterminate(es: seq<string>, nl: string): seq<string>
  {
    seq(|es|, i requires 0 <= i < |es| => if i < |es| - 1 then Strip(es[i], nl) else es[i])
  }

  /** The inverse of TerminateAll: every entry loses its terminator. */
  function UnterminateAll(es: seq<string>, nl: string): seq<string>
  {
    seq(|es|, i requires 0 <= i < |es| => Strip(es[i], nl))
  }

  lemma StripTerminated(s: string, nl: string)
    ensures Strip(s + nl, nl) == s
  {
    EndsWithAppend(s, nl);
    assert (s + nl)[..|s|] == s;
  }

  /** Round trip: Unterminate undoes Terminate. */
  lemma UnterminateTerminate(segs: seq<string>, nl: string)
    requires |segs| >= 1
    ensures Unterminate(Terminate(segs, nl), nl) == segs
  {
    var t := Terminate(segs, nl);
    forall i | 0 <= i < |segs| - 1
      ensures Strip(t[i], nl) == segs[i]
    {
      StripTerminated(segs[i], nl);
    }
  }

  /** Round trip: UnterminateAll undoes TerminateAll. */
  lemma UnterminateAllTerminateAll(segs: seq<string>, nl: string)
    ensures UnterminateAll(TerminateAll(segs, nl), nl) == segs
  {
    var t := TerminateAll(segs, nl);
    forall i | 0 <= i < |segs|
      ensures Strip(t[i], nl) == segs[i]
    {
      StripTerminated(segs[i], nl);
    }
  }
}
